=== FILE: README.md ===
# SniffCore.Mediation in Dafny

A functional model of the in-process publish/subscribe bus of `SniffCore.Mediation`.
It proves routing, removal, purging, snapshot-delivery and identity properties of the
model.

`MessageBus` keeps a list of per-type slots (`Message<T>`) keyed by `typeof(T)`.
- Each slot maps a `SubscribeToken` to a `WeakAction<T>`. That is a callback whose
  target object is held only through a weak reference.
- `Subscribe<T>` creates a slot lazily and stores the callback under a token with a
  fresh GUID.
- `Notify<T>` drops slots with no live entry, then delivers the payload to a snapshot
  of the `T` slot.
- `Unsubscribe` removes a token from every slot, then drops dead slots. The batch
  overloads are plain loops over the single-token form.

`Subscriber<T>` is the disposable handle used by the other bus façade. Its callback
runs either directly or through an attached dispatcher.

## Modules and files

| file | module | models |
|---|---|---|
| `wrappers.dfy` | `Wrappers` | `Option` and `Result` |
| `runtime.dfy` | `Runtime` | type tags, GUIDs, object references, the two exception kinds, the heap oracle, `Guid.GetHashCode` |
| `tokens.dfy` | `Tokens` | `SubscribeToken` |
| `weak_actions.dfy` | `WeakActions` | `WeakAction<T>` |
| `messages.dfy` | `Messages` | `Message<T>`, the per-type slot |
| `message_bus.dfy` | `MessageBus` | the static `MessageBus` as an explicit `Bus` value |
| `bus_properties.dfy` | `BusProperties` | lemmas that relate several bus operations, and one end-to-end scenario |
| `subscribers.dfy` | `Subscribers` | `Subscriber<T>` and an abstract dispatcher |

## How the model stands in for the runtime

- **Bus state.** The static `_messages` list becomes `Bus(messages, nextGuid)`. Every
  operation takes a bus and returns the next one.
- **GUIDs.** `Guid.NewGuid()` becomes the counter `nextGuid`, so GUIDs are always fresh.
- **Slot dictionary.** The `Dictionary<SubscribeToken, WeakAction<T>>` of a slot becomes
  a sequence of entries with distinct tokens.
- **Garbage collector and reflection.** Both become a `Heap` parameter:
  - `dead`: the objects already reclaimed.
  - `unbindable`: the methods for which `Delegate.CreateDelegate` fails.

  A weak reference to null is never alive, so a callback without a target is dead from
  the start.
- **Exceptions.**
  - `ArgumentNullException` becomes `ArgumentNull(paramName)`, and
    `NullReferenceException` becomes `NullReference`.
  - An operation that throws before changing anything returns `Failure`.
  - An operation that throws part-way returns the state reached so far together with
    the error:
    - `Notify` returns `Delivery(bus, trace, thrown)`.
    - The batch `Unsubscribe` returns `Outcome(bus, thrown)`.
- **Callbacks that touch the bus.** During `Notify` a callback may subscribe or
  unsubscribe. This is a `react` parameter that maps each invocation to the bus commands
  the callback issues. They are applied before the next callback runs.
- **Dispatcher.** A `Subscriber<T>`'s dispatcher is `Dispatcher(id, runsAtOnce)`.
  `Invoke` hands it a closure. `Subscribers.Schedule` stands in for the WPF side: it
  runs the closure at once or appends it to a queue, and the closure reads the
  subscriber's callback only when it runs.
- **Delivery trace.** Each invocation in a delivery records three things: the entry's
  token, the callback it resolved to, and the payload.

### Behaviour of the code that is easy to miss

- **Delivery order.** `Send` enumerates a `Dictionary`, whose order .NET does not
  promise. The model delivers in its own sequence order, and no lemma claims
  subscription-order delivery.
- **Liveness at call time.** The snapshot in `Send` is not filtered for liveness at
  call time. `GetAction()` is called and invoked with no null check. A callback that
  cannot be rebuilt therefore throws `NullReferenceException` and ends the delivery.
  The model uses one `Heap` for a whole `Notify`, so after the purge only a failed bind
  can cause this; `NotifyThrowsOnlyOnBindFailure` states this. In the code, a collection
  during delivery can also reclaim a snapshotted target, and that too ends the delivery
  with `NullReferenceException`.
- **Disposal.** `Subscriber<T>.Dispose` has no guard. Every call clears the callback and
  raises `Disposed` again, so disposal is not a no-op the second time.
- **When dead slots are dropped.** Stale slots are dropped only by `Notify` and
  `Unsubscribe`. `Subscribe` reuses any existing slot, even one whose entries are all dead.
- **Scheduler.** Slots take no scheduler. Only `Subscriber<T>` has a dispatcher.

## Model

| member | source | states |
|---|---|---|
| `Tokens.Equals` | SniffCore.Mediation/SubscribeToken.cs:27-30 | a null argument throws `NullReferenceException`; otherwise true exactly when both tokens carry the same GUID |
| `Tokens.EqualsObject` | SniffCore.Mediation/SubscribeToken.cs:13-31 | `Equals(object)` is not overridden, so it holds only for the token's own reference, and never for null or another runtime type |
| `Tokens.EqualsReflexive` | SniffCore.Mediation/SubscribeToken.cs:27-30 | a token equals itself, through the typed overload and through an `object` reference to it |
| `Tokens.EqualsSymmetric` | SniffCore.Mediation/SubscribeToken.cs:27-30 | the typed equality gives the same answer in both directions |
| `Tokens.EqualsTransitive` | SniffCore.Mediation/SubscribeToken.cs:27-30 | the typed equality is transitive |
| `Tokens.NeverEqualsOtherObject` | SniffCore.Mediation.Tests/SubscribeTokenTests.cs:30-38 | a token never equals null or an object of another runtime type |
| `Tokens.FreshGuidsGiveUnequalTokens` | SniffCore.Mediation/SubscribeToken.cs:17-20 | tokens built from different GUIDs are unequal through both equality overloads |
| `WeakActions.Wrap` | SniffCore.Mediation/WeakAction.cs:11-15 | the wrapper keeps the callback's method and a reference to its target |
| `WeakActions.GetAction` | SniffCore.Mediation/WeakAction.cs:24-36 | none when the target is gone; none (never an exception) when binding fails; otherwise a delegate to the stored target and the stored method |
| `WeakActions.ResolveRoundTrip` | SniffCore.Mediation/WeakAction.cs:11-36 | wrapping then resolving gives back the same callback exactly when its target exists and is alive and its method binds |
| `WeakActions.HasActionIgnoresTarget` | SniffCore.Mediation/WeakAction.cs:19-22 | `HasAction` accepts any delegate to the same method, whatever its target |
| `Messages.NewSlotIsEmpty` | SniffCore.Mediation/Message.cs:21-25 | a new slot is keyed by its type, holds no token, is not alive and delivers to nobody |
| `Messages.Add` | SniffCore.Mediation/Message.cs:53-58 | exactly one entry is added, under a token with the fresh GUID that was not present before; the keys grow by that token alone |
| `Messages.Remove` | SniffCore.Mediation/Message.cs:40-44 | an absent token leaves the slot unchanged; a present one loses its entry and nothing else; distinct keys are kept |
| `Messages.RemoveDead` | SniffCore.Mediation/Message.cs:60-65 | keeps exactly the entries whose target is alive, under the same key, with distinct keys kept |
| `Messages.LiveOnlyOfLive` | SniffCore.Mediation/Message.cs:60-65 | purging entries that are all alive changes nothing |
| `Messages.IsAlive` | SniffCore.Mediation/Message.cs:31-38 | purges first, then answers true exactly when some entry is alive, which is exactly when the purged slot is non-empty |
| `Messages.IsAliveIdempotent` | SniffCore.Mediation/Message.cs:31-38 | reading `IsAlive` again gives the same answer and purges nothing more |
| `Messages.SendEntries` | SniffCore.Mediation/Message.cs:49-50 | the i-th invocation is the i-th entry's resolved callback with the same payload; the loop ends early only with `NullReferenceException`, at the first entry that cannot be resolved |
| `Messages.Send` | SniffCore.Mediation/Message.cs:46-51 | every invocation carries the payload and a token of the slot, and there are no more invocations than entries |
| `Messages.SendReachesEveryEntryOnce` | SniffCore.Mediation/Message.cs:46-51 | when each of the slot's own entries is alive and its method binds (methods of other slots do not matter), nothing is thrown and every entry's callback is invoked exactly once with the payload |
| `MessageBus.Empty` | SniffCore.Mediation/MessageBus.cs:62-67 | the static constructor starts with no slots, and the registry invariant holds |
| `MessageBus.FindMessage` | SniffCore.Mediation/MessageBus.cs:156-159 | the index of the first slot with key `T`, or none if no slot has that key |
| `MessageBus.GetMessage` | SniffCore.Mediation/MessageBus.cs:156-159 | a slot is found exactly when some slot has key `T`; when keys are unique, its entries are exactly the entries stored under `T` |
| `MessageBus.GetOrCreateMessage` | SniffCore.Mediation/MessageBus.cs:144-154 | reuses the slot for `T`, or appends one new empty slot when none exists; earlier slots, stored entries and key uniqueness are unchanged |
| `MessageBus.Register` | SniffCore.Mediation/MessageBus.cs:81-82 | the registry invariant is kept; exactly one entry is added under `T`, with a token no slot held before; a slot is added only when `T` had none; slots of other types are untouched |
| `MessageBus.Subscribe` | SniffCore.Mediation/MessageBus.cs:76-83 | fails with `ArgumentNullException("callback")` exactly when the callback is null, before any change; otherwise returns a new token whose entry is stored under `T` |
| `MessageBus.Purge` | SniffCore.Mediation/MessageBus.cs:161-164 | afterwards every slot is non-empty and fully alive; exactly the live entries survive, under their keys; no key appears that was not there; unique keys stay unique |
| `MessageBus.RemoveDead` | SniffCore.Mediation/MessageBus.cs:161-164 | the bus-level purge: all remaining slots are live, exactly the live entries survive, and the registry invariant is kept |
| `MessageBus.RemoveEverywhere` | SniffCore.Mediation/MessageBus.cs:111-112 | every slot loses the token's entry and nothing else; an unknown token changes nothing |
| `MessageBus.RemoveToken` | SniffCore.Mediation/MessageBus.cs:111-113 | afterwards no slot holds the token; exactly the other live entries survive; all slots are live; an unknown token amounts to the purge alone |
| `MessageBus.Unsubscribe` | SniffCore.Mediation/MessageBus.cs:106-114 | fails with `ArgumentNullException("subscribeToken")` exactly when the token is null; otherwise the token is gone everywhere, every remaining slot is live, and an unknown token is no error |
| `MessageBus.UnsubscribeEach` | SniffCore.Mediation/MessageBus.cs:126-127 | the loop is single `Unsubscribe` applied to each element in order; a null element throws there, and earlier removals stay done |
| `MessageBus.UnsubscribeMany` | SniffCore.Mediation/MessageBus.cs:121-142 | a null collection throws `ArgumentNullException("listenTokens")` before any change; with no null element, every token is gone and the other live entries remain; a null element throws `ArgumentNullException("subscribeToken")` |
| `MessageBus.Deliver` | SniffCore.Mediation/Message.cs:48-50 | whatever the callbacks do to the bus meanwhile, the invocations and the exception are those of the snapshot taken before the first call; the registry it leaves is the one reached by running, in order, the bus commands of the callbacks that were invoked |
| `MessageBus.PurgeFind` | SniffCore.Mediation/MessageBus.cs:96-97 | the slot `Notify` finds after purging is the purged form of the slot for `T`, or none if that slot had no live entry |
| `MessageBus.Notify` | SniffCore.Mediation/MessageBus.cs:91-99 | a null payload throws `ArgumentNullException("implementation")` before the purge; with no slot for `T`, only the purge happens; otherwise the delivery is `Send` over the purged `T` slot; every invocation carries the payload and a token subscribed to `T`; after a non-null payload the registry is the purged one with the invoked callbacks' bus commands run on it, and nothing else |
| `BusProperties.NotifyRoutesByType` | SniffCore.Mediation/MessageBus.cs:96-98 | publishing one type never invokes a subscription to another type |
| `BusProperties.NotHeldNeverNotified` | SniffCore.Mediation/MessageBus.cs:96-98 | a token that no slot holds is never invoked by a `Notify` of any type, under any collector state and whatever callbacks do |
| `BusProperties.UnsubscribedNeverNotified` | SniffCore.Mediation/MessageBus.cs:106-114 | after `Unsubscribe(token)`, no later `Notify` of any type invokes that token, even if the collector has reclaimed objects in between |
| `BusProperties.NotifySnapshotIgnoresReentrancy` | SniffCore.Mediation/Message.cs:46-48 | subscribing or unsubscribing from inside callbacks does not change who receives the payload being delivered, nor the exception it ends with |
| `BusProperties.NotifyInvokesPurgedSlot` | SniffCore.Mediation/Message.cs:46-51 | when every live `T` subscription's method binds (other types' methods do not matter), a `Notify` that finds the `T` slot throws nothing and invokes each entry of the purged slot once, with its own callback and the payload |
| `BusProperties.NotifyReachesEveryLiveSubscriberOnce` | SniffCore.Mediation/Message.cs:46-51 | when every live `T` subscription's method binds (other types' methods do not matter): nothing is thrown; every live subscription to `T` is invoked with the payload; only those are invoked; none twice |
| `BusProperties.NotifyThrowsOnlyOnBindFailure` | SniffCore.Mediation/Message.cs:50 | a `Notify` with a non-null payload can end only in `NullReferenceException`, and only when the `T` slot had a live entry whose method failed to bind |
| `BusProperties.NotifyWithoutReactionsOnlyPurges` | SniffCore.Mediation/MessageBus.cs:91-99 | when no callback subscribes or unsubscribes, the registry after `Notify` is exactly the purged registry, whatever was delivered or thrown |
| `BusProperties.NotifyLeavesOnlyLiveSlots` | SniffCore.Mediation/MessageBus.cs:96 | after a `Notify` whose callbacks do not subscribe, every remaining slot holds only live entries and at least one |
| `BusProperties.SubscribeUnsubscribeRoundTrip` | SniffCore.Mediation/MessageBus.cs:76-114 | when the `T` slot is absent or holds only dead entries, subscribing to `T` and unsubscribing that token leaves no slot for `T`; `Subscribe` reuses the dead slot and the purge after the removal drops it |
| `BusProperties.SubscribeKeepsOneSlotPerType` | SniffCore.Mediation/MessageBus.cs:144-159 | afterwards exactly one slot has key `T`; one is added only when none existed; other slots are untouched |
| `BusProperties.SubscribeTokensDiffer` | SniffCore.Mediation.Tests/SubscribeTokenTests.cs:9-17 | two subscriptions get unequal tokens, even with the same type and callback |
| `BusProperties.EachStopsAtFirstNull` | SniffCore.Mediation/MessageBus.cs:126-127 | the loop over a batch leaves the same state as unsubscribing only the tokens before its first null |
| `BusProperties.BatchStopsAtFirstNull` | SniffCore.Mediation/MessageBus.cs:121-128 | a batch with its first null at position j leaves the state after unsubscribing the first j tokens, and throws `ArgumentNullException("subscribeToken")` |
| `BusProperties.SubscribeTwoTypes` | SniffCore.Mediation/MessageBus.cs:76-83 | from an empty bus, subscribing a string and then an int callback gives tokens 0 and 1 and one slot per type, in that order |
| `BusProperties.UnsubscribeFirstOfTwo` | SniffCore.Mediation/MessageBus.cs:106-114 | unsubscribing the string token from that bus leaves only the int slot |
| `BusProperties.NotifyOneSlot` | SniffCore.Mediation/MessageBus.cs:91-99 | on the bus holding only the int callback, publishing an int invokes that callback once with the int and leaves the bus as it was |
| `BusProperties.NotifyOtherSlot` | SniffCore.Mediation/MessageBus.cs:96-98 | on that bus, publishing a string reaches nobody and leaves the bus as it was |
| `BusProperties.UnsubscribeOneOfTwoScenario` | SniffCore.Mediation/MessageBus.cs:76-114 | end to end from an empty bus: the unsubscribed string callback is never invoked, and the int callback receives 13 once |
| `Subscribers.New` | SniffCore.Mediation/Subscriber.cs:21-25 | a new subscriber holds the callback it was given, has no dispatcher and no `Disposed` handler |
| `Subscribers.On` | SniffCore.Mediation/Subscriber.cs:31-35 | stores the dispatcher (null included), changes nothing else, and returns the same subscriber |
| `Subscribers.DisposeRaisesAddedHandler` | SniffCore.Mediation/Subscriber.cs:28-43 | a handler attached with `Disposed +=` is raised by the next `Dispose`, after the earlier handlers, with the subscriber as sender |
| `Subscribers.Dispose` | SniffCore.Mediation/Subscriber.cs:40-44 | clears the callback and nothing else; raises `Disposed` once per attached handler, in order, with the subscriber as sender |
| `Subscribers.RunTask` | SniffCore.Mediation/Subscriber.cs:49 | the dispatched closure calls the callback the subscriber holds when the closure runs, once, or nothing if it holds none |
| `Subscribers.Invoke` | SniffCore.Mediation/Subscriber.cs:46-52 | with a dispatcher, exactly one closure goes to that dispatcher and nothing is called directly; without one, the callback is called directly once with the object, or nothing happens if it was cleared |
| `Subscribers.Equals` | SniffCore.Mediation/Subscriber.cs:59-71 | false for null; true for the same reference; when true of a consistent reference, the runtime type and instance GUID match |
| `Subscribers.HashCode` | SniffCore.Mediation/Subscriber.cs:77-80 | a signed 32-bit value determined by the instance GUID alone |
| `Subscribers.OnReplacesDispatcher` | SniffCore.Mediation/Subscriber.cs:31-35 | a second `On` replaces the first, and `On` returns a subscriber equal to the original |
| `Subscribers.DisposeSilencesInvoke` | SniffCore.Mediation/Subscriber.cs:40-52 | after `Dispose`, `Invoke` calls nothing, either directly or through a dispatched closure |
| `Subscribers.DisposeBeforeDispatchedRun` | SniffCore.Mediation/Subscriber.cs:46-49 | a closure handed to the dispatcher before `Dispose` but run after it calls nothing |
| `Subscribers.DispatchedRunMatchesDirect` | SniffCore.Mediation/Subscriber.cs:46-52 | if nothing happens in between, running the dispatched closure makes the same call a direct `Invoke` would; an immediate dispatcher makes it at once |
| `Subscribers.DisposeRaisesEveryTime` | SniffCore.Mediation/Subscriber.cs:40-44 | a second `Dispose` leaves the same state and raises `Disposed` again, to every handler |
| `Subscribers.EqualsCases` | SniffCore.Mediation/Subscriber.cs:59-71 | false for null; true for the same reference; false for another runtime type (including a `Subscriber` of another `T`); otherwise true exactly when the instance GUIDs match |
| `Subscribers.EqualsSymmetric` | SniffCore.Mediation/Subscriber.cs:59-71 | equality between two subscribers is symmetric |
| `Subscribers.HashConsistentWithEquals` | SniffCore.Mediation/Subscriber.cs:59-80 | equal subscribers have equal hash codes |

## Left out

- **Threads and locking.** `_messages` is a static list with no locking. The model is
  sequential and makes no claim about concurrent calls.
- **Garbage collector, `WeakReference` and `Delegate.CreateDelegate`.** These are not
  modelled; the `Heap` parameter stands for them. Nothing fixes when a target dies. The
  model uses one `Heap` for a whole `Notify`, so no target dies between the purge and
  the delivery; in the code a collection can happen in between.
- BusProperties.NotifyThrowsOnlyOnBindFailure: rests on that one-heap assumption. In the
  code, a target collected after the purge at `SniffCore.Mediation/MessageBus.cs:96`
  makes `GetAction` return null at `SniffCore.Mediation/WeakAction.cs:26-27`. Then
  `SniffCore.Mediation/Message.cs:50` throws `NullReferenceException` with no bind
  failure at all.
- **Nested `Notify` from inside a callback.** Callbacks may only subscribe and
  unsubscribe, through `react`.
- **Exceptions thrown by subscriber callbacks.** Callbacks are assumed to return
  normally.
- **The WPF `Dispatcher`.** It is modelled only as a scheduler that runs a closure at
  once or queues it (`Subscribers.Schedule`). Thread affinity and priorities are not
  modelled.
- **Multicast delegates.** `WeakActions.Callback` is one target and one method. The
  constructor at `SniffCore.Mediation/WeakAction.cs:11-15` keeps only `Target` and
  `Method`. For a combined delegate such as `a + b` those belong to the last entry of
  the invocation list. So `Subscribe<T>(a + b)` delivers only to `b`. The model cannot
  express such a callback.
- WeakActions.GetAction: does not model rebinding by method name. The code rebinds
  with `_method.Name` against the target's runtime type
  (`SniffCore.Mediation/WeakAction.cs:30`). So it can bind a different method of the same
  name, for example one hidden with `new` in a derived class. The model assumes the
  stored method is the one bound again. `Heap.unbindable` is keyed by the method alone,
  not by the target's type and the method together. So the contract promises the stored
  method back, which the code does not guarantee in these cases.
- WeakActions.ResolveRoundTrip: rests on the same assumption about binding by name,
  so it says nothing about the cases above.
- **`SubscribeToken.GetHashCode`.** The token inherits the default reference hash code,
  which the runtime chooses and this model does not represent. So there is no lemma
  that one token's hash is stable. There is also no lemma that two tokens have
  different hashes: `SniffCore.Mediation.Tests/SubscribeTokenTests.cs:52-61` asserts
  this, but reference hashes may collide.
- **`Runtime.GuidHash`.** It XORs the four 32-bit words of the counter value. It does
  not reproduce the byte layout of a random `System.Guid`.
- **`Message<T>.Key`'s setter.** It is never used.
- **The duplicate `IMessage` declaration.** `SniffCore.Mediation/IMessage.cs` and
  `SniffCore.Mediation/Message.cs:12-17` declare it with different `Key` accessors.
  Neither adds behaviour.
- **The `Chapter.Mediation` interfaces and the façade that listens to `Disposed`.**
  These are interfaces only, or not part of this model.
  `Subscribers.AddDisposedHandler` stands for the `Disposed +=` a façade performs.
- **`WeakActions.IsAlive` and `WeakActions.HasAction`.** They are predicates whose
  meaning is their definition. `WeakActions.GetAction`, `WeakActions.ResolveRoundTrip`
  and `WeakActions.HasActionIgnoresTarget` state their properties.

=== FILE: bus_properties.dfy ===
/** Properties that relate several bus operations: routing by type, what a
    delivery reaches, what an unsubscription guarantees for later deliveries,
    and the subscribe/unsubscribe round trip. */
module BusProperties {
  import opened Wrappers
  import opened Runtime
  import opened Tokens
  import WeakActions
  import Messages
  import opened MessageBus

  /** The callback a live, bindable entry resolves to. */
  function Resolved(e: Messages.Entry): WeakActions.Callback
  {
    WeakActions.Callback(e.action.targetRef, e.action.methodInfo)
  }

  lemma TokensForHeld(ms: seq<Messages.Message>, t: TypeTag, tok: SubscribeToken)
    requires UniqueKeys(ms) && tok in TokensFor(ms, t)
    ensures exists e :: InSlot(ms, t, e) && e.token == tok
    ensures Holds(ms, tok)
  {
    var m := GetMessage(ms, t).value;
    var e :| e in m.entries && e.token == tok;
    assert InSlot(ms, t, e);
    HoldsViaInSlot(ms, tok);
  }

  /** A subscriber never sees a payload published under another type: publishing
      an int never reaches a string subscription. */
  lemma NotifyRoutesByType(bus: Bus, t: TypeTag, u: TypeTag, tok: SubscribeToken, payload: Obj, heap: Heap,
                           react: Messages.Invocation -> seq<Command>)
    requires Valid(bus) && t != u && tok in TokensFor(bus.messages, u)
    ensures forall inv :: inv in Notify(bus, t, payload, heap, react).trace ==> inv.token != tok
  {
    var r := Notify(bus, t, payload, heap, react);
    TokensForHeld(bus.messages, u, tok);
    var e2 :| InSlot(bus.messages, u, e2) && e2.token == tok;
    forall inv | inv in r.trace ensures inv.token != tok {
      TokensForHeld(bus.messages, t, inv.token);
      var e1 :| InSlot(bus.messages, t, e1) && e1.token == inv.token;
      assert e1.token != e2.token;
    }
  }

  /** A token no slot holds is never invoked by a `Notify`, of any type, under any
      state of the collector, whatever callbacks do meanwhile. */
  lemma NotHeldNeverNotified(bus: Bus, tok: SubscribeToken, t: TypeTag, payload: Obj, heap: Heap,
                             react: Messages.Invocation -> seq<Command>)
    requires Valid(bus) && !Holds(bus.messages, tok)
    ensures forall inv :: inv in Notify(bus, t, payload, heap, react).trace ==> inv.token != tok
  {
    var r := Notify(bus, t, payload, heap, react);
    forall inv | inv in r.trace ensures inv.token != tok {
      TokensForHeld(bus.messages, t, inv.token);
    }
  }

  /** Once `Unsubscribe(token)` has returned, no later `Notify`, of any type,
      invokes that token's callback, whatever the collector has reclaimed in
      between (`h1` and `h2`) and whatever callbacks do meanwhile. */
  lemma UnsubscribedNeverNotified(bus: Bus, tok: SubscribeToken, t: TypeTag, payload: Obj, h1: Heap, h2: Heap,
                                  react: Messages.Invocation -> seq<Command>)
    requires Valid(bus)
    ensures Unsubscribe(bus, Some(tok), h1).Success?
    ensures var after := Unsubscribe(bus, Some(tok), h1).value;
            forall inv :: inv in Notify(after, t, payload, h2, react).trace ==> inv.token != tok
  {
    var after := Unsubscribe(bus, Some(tok), h1).value;
    NotHeldNeverNotified(after, tok, t, payload, h2, react);
  }

  /** Who receives a payload is fixed before the first callback runs: whatever
      the callbacks subscribe or unsubscribe, the invocations are the same. */
  lemma NotifySnapshotIgnoresReentrancy(bus: Bus, t: TypeTag, payload: Obj, heap: Heap,
                                        react1: Messages.Invocation -> seq<Command>,
                                        react2: Messages.Invocation -> seq<Command>)
    requires Valid(bus)
    ensures Notify(bus, t, payload, heap, react1).trace == Notify(bus, t, payload, heap, react2).trace
    ensures Notify(bus, t, payload, heap, react1).thrown == Notify(bus, t, payload, heap, react2).thrown
  {
  }

  /** With every live `t` subscription bindable, a `Notify` that finds a slot invokes
      the purged slot's entries one by one, each with its own callback and the payload. */
  lemma NotifyInvokesPurgedSlot(bus: Bus, t: TypeTag, payload: Obj, heap: Heap,
                                react: Messages.Invocation -> seq<Command>)
    requires Valid(bus) && !payload.Null?
    requires forall e :: InSlot(bus.messages, t, e) && Messages.LiveEntry(e, heap) ==> e.action.methodInfo !in heap.unbindable
    requires GetMessage(bus.messages, t).Some?
    ensures var r := Notify(bus, t, payload, heap, react);
            var live := Messages.RemoveDead(GetMessage(bus.messages, t).value, heap);
      && r.thrown.None?
      && |r.trace| == |live.entries|
      && (forall i :: 0 <= i < |live.entries| ==>
            r.trace[i] == Messages.Invocation(live.entries[i].token, Resolved(live.entries[i]), payload))
      && (forall i, j :: 0 <= i < j < |r.trace| ==> r.trace[i].token != r.trace[j].token)
  {
    var m := GetMessage(bus.messages, t).value;
    assert Messages.Valid(m) by {
      var i :| 0 <= i < |bus.messages| && bus.messages[i] == m;
    }
    var live := Messages.RemoveDead(m, heap);
    forall e | e in live.entries
      ensures Messages.LiveEntry(e, heap) && e.action.methodInfo !in heap.unbindable
    {
      assert InSlot(bus.messages, t, e);
    }
    Messages.SendReachesEveryEntryOnce(live, heap, payload);
  }

  /** A trace that invokes `live` entry by entry names each entry once and nothing else. */
  lemma TraceMatchesEntries(trace: seq<Messages.Invocation>, live: seq<Messages.Entry>, payload: Obj)
    requires |trace| == |live|
    requires forall i :: 0 <= i < |live| ==> trace[i] == Messages.Invocation(live[i].token, Resolved(live[i]), payload)
    ensures forall e :: e in live ==> Messages.Invocation(e.token, Resolved(e), payload) in trace
    ensures forall inv :: inv in trace ==> exists e :: e in live && inv == Messages.Invocation(e.token, Resolved(e), payload)
  {
    forall e | e in live ensures Messages.Invocation(e.token, Resolved(e), payload) in trace {
      var i :| 0 <= i < |live| && live[i] == e;
      assert trace[i] == Messages.Invocation(e.token, Resolved(e), payload);
    }
    forall inv | inv in trace ensures exists e :: e in live && inv == Messages.Invocation(e.token, Resolved(e), payload) {
      var i :| 0 <= i < |trace| && trace[i] == inv;
      assert live[i] in live;
    }
  }

  /** With every live `t` subscription bindable, `Notify` throws nothing and invokes
      every live subscription of the type exactly once, with the payload, and nothing else. */
  lemma NotifyReachesEveryLiveSubscriberOnce(bus: Bus, t: TypeTag, payload: Obj, heap: Heap,
                                             react: Messages.Invocation -> seq<Command>)
    requires Valid(bus) && !payload.Null?
    requires forall e :: InSlot(bus.messages, t, e) && Messages.LiveEntry(e, heap) ==> e.action.methodInfo !in heap.unbindable
    ensures var r := Notify(bus, t, payload, heap, react);
      && r.thrown.None?
      && (forall e :: InSlot(bus.messages, t, e) && Messages.LiveEntry(e, heap) ==>
            Messages.Invocation(e.token, Resolved(e), payload) in r.trace)
      && (forall inv :: inv in r.trace ==> exists e :: (InSlot(bus.messages, t, e) && Messages.LiveEntry(e, heap)
            && inv == Messages.Invocation(e.token, Resolved(e), payload)))
      && (forall i, j :: 0 <= i < j < |r.trace| ==> r.trace[i].token != r.trace[j].token)
  {
    var r := Notify(bus, t, payload, heap, react);
    match GetMessage(bus.messages, t)
    case None =>
    case Some(m) =>
      var live := Messages.RemoveDead(m, heap).entries;
      NotifyInvokesPurgedSlot(bus, t, payload, heap, react);
      TraceMatchesEntries(r.trace, live, payload);
      assert forall e :: e in live <==> InSlot(bus.messages, t, e) && Messages.LiveEntry(e, heap);
  }

  /** The only exception a delivery can end with after the purge is the one from
      a callback whose method cannot be bound again: dead targets are gone by then. */
  lemma NotifyThrowsOnlyOnBindFailure(bus: Bus, t: TypeTag, payload: Obj, heap: Heap,
                                      react: Messages.Invocation -> seq<Command>)
    requires Valid(bus) && !payload.Null?
    requires Notify(bus, t, payload, heap, react).thrown.Some?
    ensures Notify(bus, t, payload, heap, react).thrown == Some(NullReference)
    ensures exists e :: InSlot(bus.messages, t, e) && Messages.LiveEntry(e, heap)
                        && e.action.methodInfo in heap.unbindable
  {
    var r := Notify(bus, t, payload, heap, react);
    var m := GetMessage(bus.messages, t).value;
    var live := Messages.RemoveDead(m, heap);
    var e := live.entries[|r.trace|];
    assert e in live.entries;
    assert InSlot(bus.messages, t, e);
  }

  ghost predicate NeverSubscribes(react: Messages.Invocation -> seq<Command>)
  {
    forall inv, c :: c in react(inv) ==> c.UnsubscribeCmd?
  }

  lemma {:induction false} ApplyUnsubscribesKeepsLive(bus: Bus, cmds: seq<Command>, heap: Heap)
    requires Valid(bus) && AllLive(bus.messages, heap)
    requires forall c :: c in cmds ==> c.UnsubscribeCmd?
    ensures AllLive(Apply(bus, cmds, heap).messages, heap)
    decreases |cmds|
  {
    if |cmds| > 0 {
      assert cmds[0] in cmds;
      var next := RemoveToken(bus, cmds[0].token, heap);
      assert Apply(bus, cmds, heap) == Apply(next, cmds[1..], heap);
      assert forall c :: c in cmds[1..] ==> c.UnsubscribeCmd? by {
        forall c | c in cmds[1..] ensures c.UnsubscribeCmd? {
          assert c in cmds;
        }
      }
      ApplyUnsubscribesKeepsLive(next, cmds[1..], heap);
    }
  }

  lemma {:induction false} DeliverKeepsLive(bus: Bus, es: seq<Messages.Entry>, payload: Obj, heap: Heap,
                                            react: Messages.Invocation -> seq<Command>)
    requires Valid(bus) && AllLive(bus.messages, heap) && NeverSubscribes(react)
    ensures AllLive(Deliver(bus, es, payload, heap, react).bus.messages, heap)
    decreases |es|
  {
    if |es| > 0 {
      match WeakActions.GetAction(es[0].action, heap)
      case None =>
      case Some(cb) =>
        var inv := Messages.Invocation(es[0].token, cb, payload);
        ApplyUnsubscribesKeepsLive(bus, react(inv), heap);
        DeliverKeepsLive(Apply(bus, react(inv), heap), es[1..], payload, heap, react);
    }
  }

  /** After a `Notify` whose callbacks subscribe nothing new, every remaining
      slot holds at least one entry and only entries whose target is alive. */
  lemma NotifyLeavesOnlyLiveSlots(bus: Bus, t: TypeTag, payload: Obj, heap: Heap,
                                  react: Messages.Invocation -> seq<Command>)
    requires Valid(bus) && !payload.Null? && NeverSubscribes(react)
    ensures AllLive(Notify(bus, t, payload, heap, react).bus.messages, heap)
  {
    var purged := RemoveDead(bus, heap);
    match GetMessage(purged.messages, t)
    case None =>
    case Some(m) =>
      DeliverKeepsLive(purged, m.entries, payload, heap, react);
  }

  /** Callbacks that issue no bus commands add none to a delivery. */
  lemma {:induction false} SilentReactions(trace: seq<Messages.Invocation>, react: Messages.Invocation -> seq<Command>)
    requires forall inv :: react(inv) == []
    ensures Reactions(trace, react) == []
    decreases |trace|
  {
    if |trace| > 0 {
      SilentReactions(trace[1..], react);
    }
  }

  /** When no callback touches the bus, the registry a `Notify` leaves behind is
      exactly the purged registry, whatever the delivery did or threw. */
  lemma NotifyWithoutReactionsOnlyPurges(bus: Bus, t: TypeTag, payload: Obj, heap: Heap,
                                         react: Messages.Invocation -> seq<Command>)
    requires Valid(bus) && !payload.Null? && forall inv :: react(inv) == []
    ensures Notify(bus, t, payload, heap, react).bus == RemoveDead(bus, heap)
  {
    SilentReactions(Notify(bus, t, payload, heap, react).trace, react);
  }

  /** Subscribing the only live subscriber of a type and unsubscribing it again
      leaves no slot for that type behind, whether or not `Subscribe` found a
      slot of dead entries to reuse. */
  lemma SubscribeUnsubscribeRoundTrip(bus: Bus, t: TypeTag, cb: WeakActions.Callback, heap: Heap)
    requires Valid(bus) && forall e :: InSlot(bus.messages, t, e) ==> !Messages.LiveEntry(e, heap)
    ensures Subscribe(bus, t, Some(cb)).Success?
    ensures var s := Subscribe(bus, t, Some(cb)).value;
            GetMessage(Unsubscribe(s.bus, Some(s.token), heap).value.messages, t).None?
  {
    var s := Subscribe(bus, t, Some(cb)).value;
    var after := Unsubscribe(s.bus, Some(s.token), heap).value;
    forall i | 0 <= i < |after.messages| ensures after.messages[i].key != t {
      var e := after.messages[i].entries[0];
      assert InSlot(after.messages, after.messages[i].key, e);
      assert !InSlot(bus.messages, t, e);
    }
  }

  /** `Subscribe` keeps exactly one slot per type: it adds a slot only when none
      existed for the type, afterwards exactly one has that key, and the slots of
      other types are untouched. */
  lemma SubscribeKeepsOneSlotPerType(bus: Bus, t: TypeTag, cb: WeakActions.Callback)
    requires Valid(bus)
    ensures var after := Subscribe(bus, t, Some(cb)).value.bus.messages;
      && |after| == |bus.messages| + (if GetMessage(bus.messages, t).None? then 1 else 0)
      && (exists i :: 0 <= i < |after| && after[i].key == t
            && forall j :: 0 <= j < |after| && after[j].key == t ==> j == i)
      && (forall i :: 0 <= i < |bus.messages| && bus.messages[i].key != t ==> after[i] == bus.messages[i])
  {
    var after := Subscribe(bus, t, Some(cb)).value.bus.messages;
    var k := FindMessage(after, t);
    assert exists i :: 0 <= i < |after| && after[i].key == t by {
      var e := Messages.Entry(SubscribeToken(bus.nextGuid), WeakActions.Wrap(cb));
      assert InSlot(after, t, e);
    }
  }

  /** Two subscriptions, even to the same type with the same callback, get unequal tokens. */
  lemma SubscribeTokensDiffer(bus: Bus, t1: TypeTag, cb1: WeakActions.Callback, t2: TypeTag, cb2: WeakActions.Callback)
    requires Valid(bus)
    ensures var s1 := Subscribe(bus, t1, Some(cb1)).value;
            var s2 := Subscribe(s1.bus, t2, Some(cb2)).value;
            Tokens.Equals(s1.token, Some(s2.token)) == Success(false)
  {
  }

  /** One turn of the batch loop over a non-null first token. */
  lemma EachStep(bus: Bus, toks: seq<Option<SubscribeToken>>, heap: Heap)
    requires |toks| > 0 && toks[0].Some?
    ensures UnsubscribeEach(bus, toks, heap)
            == UnsubscribeEach(Unsubscribe(bus, toks[0], heap).value, toks[1..], heap)
  {
  }

  /** The loop over a batch reaches a null element only after unsubscribing every
      token before it, and stops there. */
  lemma {:induction false} EachStopsAtFirstNull(bus: Bus, toks: seq<Option<SubscribeToken>>, heap: Heap, j: nat)
    requires j < |toks| && toks[j].None? && NoNulls(toks[..j])
    ensures UnsubscribeEach(bus, toks, heap).bus == UnsubscribeEach(bus, toks[..j], heap).bus
    decreases j
  {
    if j == 0 {
      assert UnsubscribeEach(bus, toks, heap).bus == bus;
    } else {
      var head := toks[..j];
      var tail := toks[1..];
      var prefix := tail[..j - 1];
      assert head[0] == toks[0] && head[0].Some?;
      assert prefix == head[1..];
      assert NoNulls(prefix) by {
        forall i | 0 <= i < j - 1 ensures prefix[i].Some? {
          assert prefix[i] == head[i + 1];
        }
      }
      var next := Unsubscribe(bus, toks[0], heap).value;
      EachStep(bus, toks, heap);
      EachStep(bus, head, heap);
      EachStopsAtFirstNull(next, tail, heap, j - 1);
    }
  }

  /** A null element in a batch throws from the single `Unsubscribe` it reaches;
      the tokens before it stay removed and the ones after it are not touched. */
  lemma BatchStopsAtFirstNull(bus: Bus, toks: seq<Option<SubscribeToken>>, heap: Heap, j: nat)
    requires j < |toks| && toks[j].None? && NoNulls(toks[..j])
    ensures UnsubscribeMany(bus, Some(toks), heap)
            == Outcome(UnsubscribeEach(bus, toks[..j], heap).bus, Some(ArgumentNull("subscribeToken")))
  {
    EachStopsAtFirstNull(bus, toks, heap, j);
    assert !NoNulls(toks);
  }

  // ------------------------------------------------------------ a scenario

  const StringType := TypeTag("System.String")
  const IntType := TypeTag("System.Int32")

  /** Callbacks that do nothing to the bus. */
  function NoReaction(inv: Messages.Invocation): seq<Command>
  {
    []
  }

  /** The registry after subscribing `c1` to strings and then `c2` to ints. */
  lemma SubscribeTwoTypes(c1: WeakActions.Callback, c2: WeakActions.Callback)
    ensures var s1 := Subscribe(Empty(), StringType, Some(c1)).value;
            var s2 := Subscribe(s1.bus, IntType, Some(c2)).value;
            && s1.token == SubscribeToken(0) && s2.token == SubscribeToken(1)
            && s2.bus == Bus([Messages.Message(StringType, [Messages.Entry(SubscribeToken(0), WeakActions.Wrap(c1))]),
                              Messages.Message(IntType, [Messages.Entry(SubscribeToken(1), WeakActions.Wrap(c2))])], 2)
  {
    var e1 := Messages.Entry(SubscribeToken(0), WeakActions.Wrap(c1));
    var e2 := Messages.Entry(SubscribeToken(1), WeakActions.Wrap(c2));
    var m1 := Messages.Message(StringType, [e1]);
    var m2 := Messages.Message(IntType, [e2]);

    assert GetOrCreateMessage([], StringType) == ([Messages.New(StringType)], 0);
    assert Messages.Add(Messages.New(StringType), c1, 0).slot == m1 by {
      assert [] + [e1] == [e1];
    }
    var s1 := Subscribe(Empty(), StringType, Some(c1)).value;
    assert s1.bus.messages == [Messages.New(StringType)][0 := m1];
    assert s1 == Subscription(Bus([m1], 1), SubscribeToken(0));

    assert FindMessage([m1], IntType).None? by {
      assert [m1][1..] == [];
    }
    var grown := [m1] + [Messages.New(IntType)];
    assert GetOrCreateMessage([m1], IntType) == (grown, 1);
    assert Messages.Add(Messages.New(IntType), c2, 1).slot == m2 by {
      assert [] + [e2] == [e2];
    }
    var s2 := Subscribe(s1.bus, IntType, Some(c2)).value;
    assert s2.bus.messages == grown[1 := m2];
    assert grown[1 := m2] == [m1, m2];
  }

  /** Unsubscribing the string subscription leaves only the int slot. */
  lemma UnsubscribeFirstOfTwo(c1: WeakActions.Callback, c2: WeakActions.Callback, heap: Heap)
    requires c2.target.Some? && c2.target.value !in heap.dead
    ensures var e1 := Messages.Entry(SubscribeToken(0), WeakActions.Wrap(c1));
            var m2 := Messages.Message(IntType, [Messages.Entry(SubscribeToken(1), WeakActions.Wrap(c2))]);
            Unsubscribe(Bus([Messages.Message(StringType, [e1]), m2], 2), Some(SubscribeToken(0)), heap)
              == Success(Bus([m2], 2))
  {
    var e1 := Messages.Entry(SubscribeToken(0), WeakActions.Wrap(c1));
    var e2 := Messages.Entry(SubscribeToken(1), WeakActions.Wrap(c2));
    var m2 := Messages.Message(IntType, [e2]);
    var ms := [Messages.Message(StringType, [e1]), m2];
    assert Messages.Remove(ms[0], SubscribeToken(0)) == Messages.Message(StringType, []);
    assert Messages.Remove(ms[1], SubscribeToken(0)) == m2;
    var removed := RemoveEverywhere(ms, SubscribeToken(0));
    assert removed == [Messages.Message(StringType, []), m2];
    assert Messages.LiveOnly([e2], heap) == [e2];
    assert Purge([m2], heap) == [m2];
    assert removed[1..] == [m2];
    assert Purge(removed, heap) == [m2];
  }

  /** The bus that holds only `c2`'s int slot. */
  function IntOnly(c2: WeakActions.Callback): Bus
  {
    Bus([Messages.Message(IntType, [Messages.Entry(SubscribeToken(1), WeakActions.Wrap(c2))])], 2)
  }

  /** That bus keeps the registry invariant, and a live `c2` survives its purge. */
  lemma IntOnlyValid(c2: WeakActions.Callback, heap: Heap)
    requires c2.target.Some? && c2.target.value !in heap.dead
    ensures Valid(IntOnly(c2))
    ensures RemoveDead(IntOnly(c2), heap) == IntOnly(c2)
  {
    var e2 := Messages.Entry(SubscribeToken(1), WeakActions.Wrap(c2));
    var b := IntOnly(c2);
    assert forall k, e :: InSlot(b.messages, k, e) ==> e == e2;
    assert Messages.LiveOnly([e2], heap) == [e2];
    assert Purge(b.messages, heap) == b.messages;
  }

  /** Publishing an int to that bus invokes `c2` once with that int. */
  lemma NotifyOneSlot(c2: WeakActions.Callback, heap: Heap, thirteen: Obj)
    requires c2.target.Some? && c2.target.value !in heap.dead && c2.methodInfo !in heap.unbindable
    requires !thirteen.Null?
    ensures Valid(IntOnly(c2))
    ensures Notify(IntOnly(c2), IntType, thirteen, heap, NoReaction)
              == Delivery(IntOnly(c2), [Messages.Invocation(SubscribeToken(1), c2, thirteen)], None)
  {
    IntOnlyValid(c2, heap);
    var e2 := Messages.Entry(SubscribeToken(1), WeakActions.Wrap(c2));
    var b := IntOnly(c2);
    var inv := Messages.Invocation(SubscribeToken(1), c2, thirteen);
    assert GetMessage(b.messages, IntType) == Some(b.messages[0]);
    assert WeakActions.GetAction(e2.action, heap) == Some(c2);
    assert Apply(b, NoReaction(inv), heap) == b;
    assert Deliver(b, [e2], thirteen, heap, NoReaction) == Delivery(b, [inv], None);
  }

  /** Publishing a string to that bus reaches nobody and changes nothing. */
  lemma NotifyOtherSlot(c2: WeakActions.Callback, heap: Heap, hans: Obj)
    requires c2.target.Some? && c2.target.value !in heap.dead
    requires !hans.Null?
    ensures Valid(IntOnly(c2))
    ensures Notify(IntOnly(c2), StringType, hans, heap, NoReaction) == Delivery(IntOnly(c2), [], None)
  {
    IntOnlyValid(c2, heap);
    assert GetMessage(IntOnly(c2).messages, StringType).None?;
  }

  /** From an empty bus: subscribe `c1` to strings and `c2` to ints, unsubscribe
      `c1`, then publish a string and an int. The string reaches nobody; the int
      reaches `c2` once, with that int. */
  lemma UnsubscribeOneOfTwoScenario(c1: WeakActions.Callback, c2: WeakActions.Callback, heap: Heap)
    requires c2.target.Some? && c2.target.value !in heap.dead && c2.methodInfo !in heap.unbindable
    ensures var s1 := Subscribe(Empty(), StringType, Some(c1)).value;
            var s2 := Subscribe(s1.bus, IntType, Some(c2)).value;
            var b := Unsubscribe(s2.bus, Some(s1.token), heap).value;
            var hans := Boxed(100, StringType);
            var thirteen := Boxed(101, IntType);
            var d1 := Notify(b, StringType, hans, heap, NoReaction);
            var d2 := Notify(d1.bus, IntType, thirteen, heap, NoReaction);
            d1 == Delivery(d1.bus, [], None)
            && d2 == Delivery(d2.bus, [Messages.Invocation(s2.token, c2, thirteen)], None)
  {
    SubscribeTwoTypes(c1, c2);
    UnsubscribeFirstOfTwo(c1, c2, heap);
    NotifyOtherSlot(c2, heap, Boxed(100, StringType));
    NotifyOneSlot(c2, heap, Boxed(101, IntType));
  }
}

=== FILE: message_bus.dfy ===
/** `MessageBus`: the registry of per-type slots and the three public verbs
    `Subscribe`, `Notify` and `Unsubscribe`. The static list of slots becomes an
    explicit `Bus` value; every verb takes the current bus and returns the next. */
module MessageBus {
  import opened Wrappers
  import opened Runtime
  import opened Tokens
  import WeakActions
  import Messages

  /** The registry (`_messages`) and the source of fresh GUIDs. */
  datatype Bus = Bus(messages: seq<Messages.Message>, nextGuid: Guid)

  datatype Subscription = Subscription(bus: Bus, token: SubscribeToken)

  /** What a callback may do to the bus while it is being delivered to. */
  datatype Command = SubscribeCmd(t: TypeTag, callback: WeakActions.Callback) | UnsubscribeCmd(token: SubscribeToken)

  /** The state a call leaves behind, the callbacks it ran, and the exception it
      ended with, if any (state changed before an exception stays changed). */
  datatype Delivery = Delivery(bus: Bus, trace: seq<Messages.Invocation>, thrown: Option<Error>)

  datatype Outcome = Outcome(bus: Bus, thrown: Option<Error>)

  // ---------------------------------------------------------------- views

  /** Entry `e` is stored in a slot whose key is `k`. */
  predicate InSlot(ms: seq<Messages.Message>, k: TypeTag, e: Messages.Entry)
  {
    exists i :: 0 <= i < |ms| && ms[i].key == k && e in ms[i].entries
  }

  /** Some slot holds token `tok`. */
  predicate Holds(ms: seq<Messages.Message>, tok: SubscribeToken)
  {
    exists i :: 0 <= i < |ms| && tok in Messages.KeysOf(ms[i].entries)
  }

  predicate UniqueKeys(ms: seq<Messages.Message>)
  {
    forall i, j :: 0 <= i < j < |ms| ==> ms[i].key != ms[j].key
  }

  /** No token is stored twice, in one slot or across slots. */
  ghost predicate TokensUnique(ms: seq<Messages.Message>)
  {
    && (forall i :: 0 <= i < |ms| ==> Messages.Valid(ms[i]))
    && (forall k1, e1, k2, e2 :: InSlot(ms, k1, e1) && InSlot(ms, k2, e2) && e1.token == e2.token
          ==> k1 == k2 && e1 == e2)
  }

  /** Every stored token was drawn before the GUID counter reached `n`. */
  ghost predicate Fresh(ms: seq<Messages.Message>, n: Guid)
  {
    forall k, e :: InSlot(ms, k, e) ==> e.token.guid < n
  }

  /** The invariant every reachable registry keeps. */
  ghost predicate Valid(bus: Bus)
  {
    UniqueKeys(bus.messages) && TokensUnique(bus.messages) && Fresh(bus.messages, bus.nextGuid)
  }

  /** Every slot is non-empty and holds only entries whose target is reachable. */
  predicate AllLive(ms: seq<Messages.Message>, heap: Heap)
  {
    forall i :: 0 <= i < |ms| ==>
      |ms[i].entries| > 0 && forall e :: e in ms[i].entries ==> Messages.LiveEntry(e, heap)
  }

  /** The static constructor: an empty registry. */
  function Empty(): (b: Bus)
    ensures Valid(b) && |b.messages| == 0
  {
    Bus([], 0)
  }

  // ---------------------------------------------------------------- InSlot algebra

  lemma InSlotConcat(a: seq<Messages.Message>, b: seq<Messages.Message>)
    ensures forall k, e :: InSlot(a + b, k, e) <==> InSlot(a, k, e) || InSlot(b, k, e)
  {
    forall k, e ensures InSlot(a + b, k, e) <==> InSlot(a, k, e) || InSlot(b, k, e) {
      if InSlot(a + b, k, e) {
        var i :| 0 <= i < |a + b| && (a + b)[i].key == k && e in (a + b)[i].entries;
        if i >= |a| {
          assert b[i - |a|] == (a + b)[i];
        }
      }
      if InSlot(b, k, e) {
        var i :| 0 <= i < |b| && b[i].key == k && e in b[i].entries;
        assert (a + b)[i + |a|] == b[i];
      }
      if InSlot(a, k, e) {
        var i :| 0 <= i < |a| && a[i].key == k && e in a[i].entries;
        assert (a + b)[i] == a[i];
      }
    }
  }

  lemma InSlotSplit(ms: seq<Messages.Message>)
    requires |ms| > 0
    ensures forall k, e :: InSlot(ms, k, e) <==> (ms[0].key == k && e in ms[0].entries) || InSlot(ms[1..], k, e)
  {
    InSlotConcat([ms[0]], ms[1..]);
    assert ms == [ms[0]] + ms[1..];
  }

  /** With unique keys, the entries stored under key `ms[i].key` are those of slot `i`. */
  lemma InSlotAt(ms: seq<Messages.Message>, i: nat)
    requires UniqueKeys(ms) && i < |ms|
    ensures forall e :: InSlot(ms, ms[i].key, e) <==> e in ms[i].entries
  {
  }

  lemma InSlotUpdate(ms: seq<Messages.Message>, i: nat, m: Messages.Message)
    requires UniqueKeys(ms) && i < |ms| && m.key == ms[i].key
    ensures UniqueKeys(ms[i := m])
    ensures forall k, e :: InSlot(ms[i := m], k, e)
              <==> (k != ms[i].key && InSlot(ms, k, e)) || (k == ms[i].key && e in m.entries)
  {
    var ms' := ms[i := m];
    forall k, e ensures InSlot(ms', k, e) <==> (k != ms[i].key && InSlot(ms, k, e)) || (k == ms[i].key && e in m.entries) {
      if InSlot(ms', k, e) {
        var j :| 0 <= j < |ms'| && ms'[j].key == k && e in ms'[j].entries;
      }
      if k != ms[i].key && InSlot(ms, k, e) {
        var j :| 0 <= j < |ms| && ms[j].key == k && e in ms[j].entries;
        assert ms'[j] == ms[j];
      }
      if k == ms[i].key && e in m.entries {
        assert ms'[i] == m;
      }
    }
  }

  /** A registry whose stored entries are among another's keeps its token uniqueness and freshness. */
  lemma SubRegistry(small: seq<Messages.Message>, big: seq<Messages.Message>, n: Guid)
    requires forall k, e :: InSlot(small, k, e) ==> InSlot(big, k, e)
    requires forall i :: 0 <= i < |small| ==> Messages.Valid(small[i])
    requires TokensUnique(big) && Fresh(big, n)
    ensures TokensUnique(small) && Fresh(small, n)
  {
  }

  // ---------------------------------------------------------------- lookup

  /** `FirstOrDefault(m => m.Key == typeof(T))`: the index of the first slot keyed `t`. */
  function FindMessage(ms: seq<Messages.Message>, t: TypeTag): (r: Option<nat>)
    ensures r.Some? ==> r.value < |ms| && ms[r.value].key == t
                        && forall j :: 0 <= j < r.value ==> ms[j].key != t
    ensures r.None? ==> forall j :: 0 <= j < |ms| ==> ms[j].key != t
  {
    if |ms| == 0 then None
    else if ms[0].key == t then Some(0)
    else match FindMessage(ms[1..], t)
      case None => None
      case Some(i) => Some(i + 1)
  }

  /** `GetMessage<T>`: the slot for `t`, or null. */
  function GetMessage(ms: seq<Messages.Message>, t: TypeTag): (r: Option<Messages.Message>)
    ensures r.Some? <==> exists i :: 0 <= i < |ms| && ms[i].key == t
    ensures r.Some? ==> r.value.key == t && r.value in ms
    ensures UniqueKeys(ms) ==> forall e :: InSlot(ms, t, e) <==> r.Some? && e in r.value.entries
  {
    match FindMessage(ms, t)
    case None => None
    case Some(i) =>
      assert UniqueKeys(ms) ==> forall e :: InSlot(ms, t, e) <==> e in ms[i].entries by {
        if UniqueKeys(ms) { InSlotAt(ms, i); }
      }
      Some(ms[i])
  }

  /** The tokens subscribed to `t`. */
  function TokensFor(ms: seq<Messages.Message>, t: TypeTag): set<SubscribeToken>
  {
    match GetMessage(ms, t)
    case None => {}
    case Some(m) => Messages.KeysOf(m.entries)
  }

  /** `GetOrCreateMessage<T>`: reuses the slot for `t`, or appends a new empty one.
      Returns the registry and the index of the slot. */
  function GetOrCreateMessage(ms: seq<Messages.Message>, t: TypeTag): (r: (seq<Messages.Message>, nat))
    ensures r.1 < |r.0| && r.0[r.1].key == t
    ensures |r.0| == |ms| + (if GetMessage(ms, t).None? then 1 else 0)
    ensures r.0[..|ms|] == ms
    ensures GetMessage(ms, t).Some? ==> r.0[r.1] == GetMessage(ms, t).value
    ensures GetMessage(ms, t).None? ==> r.0[r.1] == Messages.New(t)
    ensures UniqueKeys(ms) ==> UniqueKeys(r.0)
    ensures forall k, e :: InSlot(r.0, k, e) <==> InSlot(ms, k, e)
  {
    match FindMessage(ms, t)
    case Some(i) => (ms, i)
    case None =>
      var ms' := ms + [Messages.New(t)];
      assert ms'[..|ms|] == ms;
      InSlotConcat(ms, [Messages.New(t)]);
      (ms', |ms|)
  }

  // ---------------------------------------------------------------- subscribe

  /** The freshly drawn GUID names no stored token, whatever slot is picked. */
  lemma NextTokenIsNew(bus: Bus, ms: seq<Messages.Message>, i: nat)
    requires Valid(bus) && i < |ms|
    requires forall k, e :: InSlot(ms, k, e) <==> InSlot(bus.messages, k, e)
    ensures SubscribeToken(bus.nextGuid) !in Messages.KeysOf(ms[i].entries)
    ensures !Holds(bus.messages, SubscribeToken(bus.nextGuid))
  {
    var token := SubscribeToken(bus.nextGuid);
    if token in Messages.KeysOf(ms[i].entries) {
      var e :| e in ms[i].entries && e.token == token;
      assert InSlot(ms, ms[i].key, e);
    }
    if Holds(bus.messages, token) {
      var j :| 0 <= j < |bus.messages| && token in Messages.KeysOf(bus.messages[j].entries);
      var e :| e in bus.messages[j].entries && e.token == token;
      assert InSlot(bus.messages, bus.messages[j].key, e);
    }
  }

  /** Storing one entry with a fresh token into slot `i` keeps the invariant. */
  lemma InsertKeepsValid(ms: seq<Messages.Message>, n: Guid, i: nat, m: Messages.Message, added: Messages.Entry)
    requires UniqueKeys(ms) && TokensUnique(ms) && Fresh(ms, n) && i < |ms|
    requires m.key == ms[i].key && Messages.Valid(m)
    requires forall e :: e in m.entries <==> e in ms[i].entries || e == added
    requires added.token.guid == n
    ensures Valid(Bus(ms[i := m], n + 1))
    ensures forall k, e :: InSlot(ms[i := m], k, e) <==> InSlot(ms, k, e) || (k == ms[i].key && e == added)
  {
    InSlotAt(ms, i);
    InSlotUpdate(ms, i, m);
    var ms' := ms[i := m];
    forall k, e ensures InSlot(ms', k, e) <==> InSlot(ms, k, e) || (k == ms[i].key && e == added) {
      if k == ms[i].key {
        assert InSlot(ms, k, e) <==> e in ms[i].entries;
      }
    }
    assert Fresh(ms', n + 1);
    forall j | 0 <= j < |ms'| ensures Messages.Valid(ms'[j]) {
    }
    forall k1, e1, k2, e2 | InSlot(ms', k1, e1) && InSlot(ms', k2, e2) && e1.token == e2.token
      ensures k1 == k2 && e1 == e2
    {
      if e1 == added || e2 == added {
        assert e1 == added && e2 == added;
      }
    }
  }

  /** The body of `Subscribe` once the null check has passed. */
  function Register(bus: Bus, t: TypeTag, cb: WeakActions.Callback): (r: Subscription)
    requires Valid(bus)
    ensures Valid(r.bus)
    ensures r.token == SubscribeToken(bus.nextGuid) && !Holds(bus.messages, r.token)
    ensures r.bus.nextGuid == bus.nextGuid + 1
    ensures forall k, e :: InSlot(r.bus.messages, k, e)
              <==> InSlot(bus.messages, k, e) || (k == t && e == Messages.Entry(r.token, WeakActions.Wrap(cb)))
    ensures |r.bus.messages| == |bus.messages| + (if GetMessage(bus.messages, t).None? then 1 else 0)
    ensures forall i :: 0 <= i < |bus.messages| && bus.messages[i].key != t ==> r.bus.messages[i] == bus.messages[i]
  {
    var (ms, i) := GetOrCreateMessage(bus.messages, t);
    NextTokenIsNew(bus, ms, i);
    assert Messages.Valid(ms[i]) by {
      if i < |bus.messages| {
        assert ms[i] == ms[..|bus.messages|][i];
      }
    }
    assert TokensUnique(ms) && Fresh(ms, bus.nextGuid) by {
      forall j | 0 <= j < |ms| ensures Messages.Valid(ms[j]) {
        if j < |bus.messages| {
          assert ms[j] == ms[..|bus.messages|][j];
        }
      }
    }
    var added := Messages.Add(ms[i], cb, bus.nextGuid);
    InsertKeepsValid(ms, bus.nextGuid, i, added.slot, Messages.Entry(added.token, WeakActions.Wrap(cb)));
    var ms' := ms[i := added.slot];
    assert forall k, e :: InSlot(ms', k, e)
              <==> InSlot(bus.messages, k, e) || (k == t && e == Messages.Entry(added.token, WeakActions.Wrap(cb))) by {
      forall k, e ensures InSlot(ms', k, e)
              <==> InSlot(bus.messages, k, e) || (k == t && e == Messages.Entry(added.token, WeakActions.Wrap(cb))) {
        assert InSlot(ms, k, e) <==> InSlot(bus.messages, k, e);
      }
    }
    assert forall j :: 0 <= j < |bus.messages| && bus.messages[j].key != t ==> ms'[j] == bus.messages[j] by {
      forall j | 0 <= j < |bus.messages| && bus.messages[j].key != t ensures ms'[j] == bus.messages[j] {
        assert ms[j] == ms[..|bus.messages|][j];
      }
    }
    Subscription(Bus(ms', bus.nextGuid + 1), added.token)
  }

  /** `Subscribe<T>`: fails on a null callback before touching the registry. */
  function Subscribe(bus: Bus, t: TypeTag, cb: Option<WeakActions.Callback>): (r: Result<Subscription, Error>)
    requires Valid(bus)
    ensures cb.None? <==> r == Failure(ArgumentNull("callback"))
    ensures r.Success? ==> Valid(r.value.bus) && !Holds(bus.messages, r.value.token)
    ensures r.Success? ==> InSlot(r.value.bus.messages, t, Messages.Entry(r.value.token, WeakActions.Wrap(cb.value)))
  {
    match cb
    case None => Failure(ArgumentNull("callback"))
    case Some(c) =>
      Success(Register(bus, t, c))
  }

  // ---------------------------------------------------------------- purge

  function KeySet(ms: seq<Messages.Message>): set<TypeTag>
  {
    set m | m in ms :: m.key
  }

  /** `_messages.RemoveAll(m => !m.IsAlive)`: asks every slot whether it is alive,
      which purges the slot's dead entries, and drops the slots that answer no. */
  function Purge(ms: seq<Messages.Message>, heap: Heap): (r: seq<Messages.Message>)
    ensures AllLive(r, heap)
    ensures forall k, e :: InSlot(r, k, e) <==> InSlot(ms, k, e) && Messages.LiveEntry(e, heap)
    ensures KeySet(r) <= KeySet(ms)
    ensures UniqueKeys(ms) ==> UniqueKeys(r)
    ensures (forall i :: 0 <= i < |ms| ==> Messages.Valid(ms[i])) ==> forall i :: 0 <= i < |r| ==> Messages.Valid(r[i])
  {
    if |ms| == 0 then []
    else
      var live := Messages.IsAlive(ms[0], heap);
      var rest := Purge(ms[1..], heap);
      PurgeStep(ms, heap, live, rest);
      if live.alive then [live.slot] + rest else rest
  }

  lemma PurgeStep(ms: seq<Messages.Message>, heap: Heap, live: Messages.Liveness, rest: seq<Messages.Message>)
    requires |ms| > 0 && live == Messages.IsAlive(ms[0], heap)
    requires forall k, e :: InSlot(rest, k, e) <==> InSlot(ms[1..], k, e) && Messages.LiveEntry(e, heap)
    requires KeySet(rest) <= KeySet(ms[1..])
    requires UniqueKeys(ms[1..]) ==> UniqueKeys(rest)
    ensures var r := if live.alive then [live.slot] + rest else rest;
      && (forall k, e :: InSlot(r, k, e) <==> InSlot(ms, k, e) && Messages.LiveEntry(e, heap))
      && KeySet(r) <= KeySet(ms)
      && (UniqueKeys(ms) ==> UniqueKeys(r))
  {
    InSlotSplit(ms);
    InSlotConcat([live.slot], rest);
    var r := if live.alive then [live.slot] + rest else rest;
    forall k, e ensures InSlot(r, k, e) <==> InSlot(ms, k, e) && Messages.LiveEntry(e, heap) {
      assert InSlot([live.slot], k, e) <==> live.slot.key == k && e in live.slot.entries by {
        if InSlot([live.slot], k, e) {
          var i :| 0 <= i < 1 && [live.slot][i].key == k && e in [live.slot][i].entries;
        }
        if live.slot.key == k && e in live.slot.entries {
          assert [live.slot][0] == live.slot;
        }
      }
      if !live.alive && e in ms[0].entries && ms[0].key == k {
        assert !Messages.LiveEntry(e, heap);
      }
    }
    assert KeySet(ms[1..]) <= KeySet(ms) by {
      forall m | m in ms[1..] ensures m in ms { }
    }
    if UniqueKeys(ms) {
      assert ms[0].key !in KeySet(ms[1..]);
      var r := if live.alive then [live.slot] + rest else rest;
      forall i, j | 0 <= i < j < |r| ensures r[i].key != r[j].key {
        if live.alive && i == 0 {
          assert r[j] in rest;
        } else if live.alive {
          assert r[i] == rest[i - 1] && r[j] == rest[j - 1];
        }
      }
    }
  }

  /** `RemoveDead`: the stale-slot purge run by `Notify` and `Unsubscribe`. */
  function RemoveDead(bus: Bus, heap: Heap): (r: Bus)
    ensures r.nextGuid == bus.nextGuid
    ensures AllLive(r.messages, heap)
    ensures forall k, e :: InSlot(r.messages, k, e) <==> InSlot(bus.messages, k, e) && Messages.LiveEntry(e, heap)
    ensures Valid(bus) ==> Valid(r)
  {
    var ms := Purge(bus.messages, heap);
    assert Valid(bus) ==> Valid(Bus(ms, bus.nextGuid)) by {
      if Valid(bus) {
        SubRegistry(ms, bus.messages, bus.nextGuid);
      }
    }
    Bus(ms, bus.nextGuid)
  }

  /** `Holds` read through the stored entries. */
  lemma HoldsViaInSlot(ms: seq<Messages.Message>, tok: SubscribeToken)
    ensures Holds(ms, tok) <==> exists k, e :: InSlot(ms, k, e) && e.token == tok
  {
    if Holds(ms, tok) {
      var i :| 0 <= i < |ms| && tok in Messages.KeysOf(ms[i].entries);
      var e :| e in ms[i].entries && e.token == tok;
      assert InSlot(ms, ms[i].key, e);
    }
    if exists k, e :: InSlot(ms, k, e) && e.token == tok {
      var k, e :| InSlot(ms, k, e) && e.token == tok;
      var i :| 0 <= i < |ms| && ms[i].key == k && e in ms[i].entries;
      assert tok in Messages.KeysOf(ms[i].entries);
    }
  }

  // ---------------------------------------------------------------- unsubscribe

  /** `foreach (var message in _messages) message.Remove(token)`. */
  function RemoveEverywhere(ms: seq<Messages.Message>, tok: SubscribeToken): (r: seq<Messages.Message>)
    ensures |r| == |ms|
    ensures forall i :: 0 <= i < |r| ==> r[i].key == ms[i].key
    ensures forall i :: 0 <= i < |r| ==> Messages.Valid(ms[i]) ==> Messages.Valid(r[i])
    ensures forall k, e :: InSlot(r, k, e) <==> InSlot(ms, k, e) && e.token != tok
    ensures !Holds(ms, tok) ==> r == ms
  {
    var r := seq(|ms|, i requires 0 <= i < |ms| => Messages.Remove(ms[i], tok));
    assert forall k, e :: InSlot(r, k, e) <==> InSlot(ms, k, e) && e.token != tok by {
      forall k, e ensures InSlot(r, k, e) <==> InSlot(ms, k, e) && e.token != tok {
        if InSlot(ms, k, e) && e.token != tok {
          var i :| 0 <= i < |ms| && ms[i].key == k && e in ms[i].entries;
          assert e in r[i].entries;
        }
      }
    }
    assert !Holds(ms, tok) ==> r == ms by {
      if !Holds(ms, tok) {
        forall i | 0 <= i < |ms| ensures r[i] == ms[i] {
          assert tok !in Messages.KeysOf(ms[i].entries);
        }
      }
    }
    r
  }

  /** The body of `Unsubscribe` once the null check has passed: remove the token
      from every slot, then purge. */
  function RemoveToken(bus: Bus, tok: SubscribeToken, heap: Heap): (r: Bus)
    ensures r.nextGuid == bus.nextGuid
    ensures AllLive(r.messages, heap)
    ensures forall k, e :: (InSlot(r.messages, k, e)
              <==> InSlot(bus.messages, k, e) && e.token != tok && Messages.LiveEntry(e, heap))
    ensures !Holds(r.messages, tok)
    ensures !Holds(bus.messages, tok) ==> r == RemoveDead(bus, heap)
    ensures Valid(bus) ==> Valid(r)
  {
    var removed := Bus(RemoveEverywhere(bus.messages, tok), bus.nextGuid);
    assert Valid(bus) ==> Valid(removed) by {
      if Valid(bus) {
        SubRegistry(removed.messages, bus.messages, bus.nextGuid);
      }
    }
    var r := RemoveDead(removed, heap);
    HoldsViaInSlot(r.messages, tok);
    r
  }

  /** `Unsubscribe(SubscribeToken)`: fails on a null token before touching the
      registry; an unknown token is no error. */
  function Unsubscribe(bus: Bus, tok: Option<SubscribeToken>, heap: Heap): (r: Result<Bus, Error>)
    ensures tok.None? <==> r == Failure(ArgumentNull("subscribeToken"))
    ensures r.Success? ==> !Holds(r.value.messages, tok.value) && AllLive(r.value.messages, heap)
    ensures r.Success? ==> forall k, e :: (InSlot(r.value.messages, k, e)
              <==> InSlot(bus.messages, k, e) && e.token != tok.value && Messages.LiveEntry(e, heap))
    ensures r.Success? && !Holds(bus.messages, tok.value) ==> r.value == RemoveDead(bus, heap)
    ensures r.Success? ==> r.value.nextGuid == bus.nextGuid && (Valid(bus) ==> Valid(r.value))
  {
    match tok
    case None => Failure(ArgumentNull("subscribeToken"))
    case Some(t) => Success(RemoveToken(bus, t, heap))
  }

  predicate NoNulls(toks: seq<Option<SubscribeToken>>)
  {
    forall i :: 0 <= i < |toks| ==> toks[i].Some?
  }

  /** What one batch step leaves behind: the state after the first token is
      removed and the rest of the batch has run. */
  ghost predicate BatchSpec(bus: Bus, toks: seq<Option<SubscribeToken>>, heap: Heap, r: Outcome)
  {
    && (|toks| == 0 ==> r == Outcome(bus, None))
    && r.bus.nextGuid == bus.nextGuid
    && (Valid(bus) ==> Valid(r.bus))
    && (forall k, e :: InSlot(r.bus.messages, k, e) ==> InSlot(bus.messages, k, e))
    && (NoNulls(toks) <==> r.thrown.None?)
    && (!NoNulls(toks) ==> r.thrown == Some(ArgumentNull("subscribeToken")))
    && (NoNulls(toks) ==> forall i :: 0 <= i < |toks| ==> !Holds(r.bus.messages, toks[i].value))
    && (NoNulls(toks) && |toks| > 0 ==> AllLive(r.bus.messages, heap))
    && (NoNulls(toks) && |toks| > 0 ==> forall k, e :: (InSlot(r.bus.messages, k, e)
          <==> InSlot(bus.messages, k, e) && Some(e.token) !in toks && Messages.LiveEntry(e, heap)))
  }

  lemma NoNullsSplit(toks: seq<Option<SubscribeToken>>)
    requires |toks| > 0
    ensures NoNulls(toks) <==> toks[0].Some? && NoNulls(toks[1..])
  {
    if toks[0].Some? && NoNulls(toks[1..]) {
      forall i | 0 <= i < |toks| ensures toks[i].Some? {
        if i > 0 { assert toks[1..][i - 1] == toks[i]; }
      }
    }
  }

  lemma BatchStepHolds(toks: seq<Option<SubscribeToken>>, next: seq<Messages.Message>, r: seq<Messages.Message>)
    requires |toks| > 0 && NoNulls(toks)
    requires !Holds(next, toks[0].value)
    requires forall k, e :: InSlot(r, k, e) ==> InSlot(next, k, e)
    requires forall i :: 0 <= i < |toks[1..]| ==> !Holds(r, toks[1..][i].value)
    ensures forall i :: 0 <= i < |toks| ==> !Holds(r, toks[i].value)
  {
    HoldsViaInSlot(next, toks[0].value);
    HoldsViaInSlot(r, toks[0].value);
    forall i | 1 <= i < |toks| ensures !Holds(r, toks[i].value) {
      assert toks[1..][i - 1] == toks[i];
    }
  }

  lemma BatchStepSlots(toks: seq<Option<SubscribeToken>>, heap: Heap,
                       bus: seq<Messages.Message>, next: seq<Messages.Message>, r: seq<Messages.Message>)
    requires |toks| > 1 && toks[0].Some?
    requires forall k, e :: (InSlot(next, k, e)
               <==> InSlot(bus, k, e) && e.token != toks[0].value && Messages.LiveEntry(e, heap))
    requires forall k, e :: (InSlot(r, k, e)
               <==> InSlot(next, k, e) && Some(e.token) !in toks[1..] && Messages.LiveEntry(e, heap))
    ensures forall k, e :: (InSlot(r, k, e)
               <==> InSlot(bus, k, e) && Some(e.token) !in toks && Messages.LiveEntry(e, heap))
  {
    forall k, e ensures InSlot(r, k, e)
      <==> InSlot(bus, k, e) && Some(e.token) !in toks && Messages.LiveEntry(e, heap)
    {
      assert Some(e.token) in toks <==> Some(e.token) == toks[0] || Some(e.token) in toks[1..] by {
        assert toks == [toks[0]] + toks[1..];
      }
    }
  }

  /** The parts of a batch step that hold whether or not the batch holds a null. */
  lemma BatchStepFrame(bus: Bus, toks: seq<Option<SubscribeToken>>, heap: Heap, next: Bus, r: Outcome)
    requires |toks| > 0 && toks[0].Some? && Unsubscribe(bus, toks[0], heap) == Success(next)
    requires BatchSpec(next, toks[1..], heap, r)
    ensures r.bus.nextGuid == bus.nextGuid
    ensures Valid(bus) ==> Valid(r.bus)
    ensures forall k, e :: InSlot(r.bus.messages, k, e) ==> InSlot(bus.messages, k, e)
    ensures NoNulls(toks) <==> r.thrown.None?
    ensures !NoNulls(toks) ==> r.thrown == Some(ArgumentNull("subscribeToken"))
  {
    NoNullsSplit(toks);
  }

  /** The parts of a batch step that hold when the batch holds no null. */
  lemma BatchStepEffect(bus: Bus, toks: seq<Option<SubscribeToken>>, heap: Heap, next: Bus, r: Outcome)
    requires |toks| > 0 && NoNulls(toks) && Unsubscribe(bus, toks[0], heap) == Success(next)
    requires BatchSpec(next, toks[1..], heap, r)
    ensures forall i :: 0 <= i < |toks| ==> !Holds(r.bus.messages, toks[i].value)
    ensures AllLive(r.bus.messages, heap)
    ensures forall k, e :: (InSlot(r.bus.messages, k, e)
              <==> InSlot(bus.messages, k, e) && Some(e.token) !in toks && Messages.LiveEntry(e, heap))
  {
    NoNullsSplit(toks);
    BatchStepHolds(toks, next.messages, r.bus.messages);
    if |toks| > 1 {
      BatchStepSlots(toks, heap, bus.messages, next.messages, r.bus.messages);
    } else {
      assert toks == [toks[0]];
      assert r.bus == next;
    }
  }

  lemma BatchStep(bus: Bus, toks: seq<Option<SubscribeToken>>, heap: Heap, next: Bus, r: Outcome)
    requires |toks| > 0 && toks[0].Some? && Unsubscribe(bus, toks[0], heap) == Success(next)
    requires BatchSpec(next, toks[1..], heap, r)
    ensures BatchSpec(bus, toks, heap, r)
  {
    BatchStepFrame(bus, toks, heap, next, r);
    if NoNulls(toks) {
      BatchStepEffect(bus, toks, heap, next, r);
    }
  }

  /** `foreach (var listenToken in listenTokens) Unsubscribe(listenToken)`: a null
      element throws, leaving the earlier removals in place. */
  function UnsubscribeEach(bus: Bus, toks: seq<Option<SubscribeToken>>, heap: Heap): (r: Outcome)
    ensures BatchSpec(bus, toks, heap, r)
    decreases |toks|
  {
    if |toks| == 0 then Outcome(bus, None)
    else
      match Unsubscribe(bus, toks[0], heap)
      case Failure(err) => Outcome(bus, Some(err))
      case Success(next) =>
        var r := UnsubscribeEach(next, toks[1..], heap);
        BatchStep(bus, toks, heap, next, r);
        r
  }

  /** `Unsubscribe(IEnumerable<SubscribeToken>)` and `Unsubscribe(params
      SubscribeToken[])`: fail on a null collection, otherwise unsubscribe each
      element in order, with no atomicity across the batch. */
  function UnsubscribeMany(bus: Bus, toks: Option<seq<Option<SubscribeToken>>>, heap: Heap): (r: Outcome)
    ensures toks.None? ==> r == Outcome(bus, Some(ArgumentNull("listenTokens")))
    ensures Valid(bus) ==> Valid(r.bus)
    ensures toks.Some? && NoNulls(toks.value) ==> r.thrown.None?
    ensures toks.Some? && !NoNulls(toks.value) ==> r.thrown == Some(ArgumentNull("subscribeToken"))
    ensures toks.Some? && NoNulls(toks.value) ==>
              forall i :: 0 <= i < |toks.value| ==> !Holds(r.bus.messages, toks.value[i].value)
    ensures toks.Some? && NoNulls(toks.value) && |toks.value| > 0 ==> AllLive(r.bus.messages, heap)
    ensures toks.Some? && NoNulls(toks.value) && |toks.value| > 0 ==> forall k, e :: (InSlot(r.bus.messages, k, e)
              <==> InSlot(bus.messages, k, e) && Some(e.token) !in toks.value && Messages.LiveEntry(e, heap))
    ensures toks == Some([]) ==> r == Outcome(bus, None)
  {
    match toks
    case None => Outcome(bus, Some(ArgumentNull("listenTokens")))
    case Some(ts) => UnsubscribeEach(bus, ts, heap)
  }

  // ---------------------------------------------------------------- notify

  /** Runs the bus operations a callback performs while it is being delivered to. */
  function Apply(bus: Bus, cmds: seq<Command>, heap: Heap): (r: Bus)
    requires Valid(bus)
    ensures Valid(r) && r.nextGuid >= bus.nextGuid
    decreases |cmds|
  {
    if |cmds| == 0 then bus
    else
      var next := match cmds[0]
        case SubscribeCmd(t, cb) => Register(bus, t, cb).bus
        case UnsubscribeCmd(tok) => RemoveToken(bus, tok, heap);
      Apply(next, cmds[1..], heap)
  }

  /** The bus commands the callbacks of a delivery issue, in the order the
      callbacks run. */
  function Reactions(trace: seq<Messages.Invocation>, react: Messages.Invocation -> seq<Command>): seq<Command>
    decreases |trace|
  {
    if |trace| == 0 then [] else react(trace[0]) + Reactions(trace[1..], react)
  }

  /** Running two command lists one after the other is running their concatenation. */
  lemma {:induction false} ApplyConcat(bus: Bus, a: seq<Command>, b: seq<Command>, heap: Heap)
    requires Valid(bus)
    ensures Apply(bus, a + b, heap) == Apply(Apply(bus, a, heap), b, heap)
    decreases |a|
  {
    if |a| == 0 {
      assert a + b == b;
    } else {
      assert (a + b)[0] == a[0];
      assert (a + b)[1..] == a[1..] + b;
      var next := match a[0]
        case SubscribeCmd(t, cb) => Register(bus, t, cb).bus
        case UnsubscribeCmd(tok) => RemoveToken(bus, tok, heap);
      ApplyConcat(next, a[1..], b, heap);
    }
  }

  /** The delivery loop of `Send`, run against the live bus: each snapshotted
      callback is resolved and invoked, and whatever it does to the bus happens
      before the next one runs. */
  function Deliver(bus: Bus, es: seq<Messages.Entry>, payload: Obj, heap: Heap,
                   react: Messages.Invocation -> seq<Command>): (r: Delivery)
    requires Valid(bus)
    ensures Valid(r.bus)
    ensures Messages.Sent(r.trace, r.thrown) == Messages.SendEntries(es, heap, payload)
    ensures r.bus == Apply(bus, Reactions(r.trace, react), heap)
    decreases |es|
  {
    if |es| == 0 then Delivery(bus, [], None)
    else
      match WeakActions.GetAction(es[0].action, heap)
      case None => Delivery(bus, [], Some(NullReference))
      case Some(cb) =>
        var inv := Messages.Invocation(es[0].token, cb, payload);
        var rest := Deliver(Apply(bus, react(inv), heap), es[1..], payload, heap, react);
        assert ([inv] + rest.trace)[1..] == rest.trace;
        ApplyConcat(bus, react(inv), Reactions(rest.trace, react), heap);
        Delivery(rest.bus, [inv] + rest.trace, rest.thrown)
  }

  lemma GetMessageCons(x: Messages.Message, ys: seq<Messages.Message>, t: TypeTag)
    requires x.key != t
    ensures GetMessage([x] + ys, t) == GetMessage(ys, t)
  {
    assert ([x] + ys)[1..] == ys;
  }

  /** The slot `Notify` finds after its purge is the purged form of the slot it
      would have found before, if that one held a live entry. */
  lemma {:induction false} PurgeFind(ms: seq<Messages.Message>, t: TypeTag, heap: Heap)
    requires UniqueKeys(ms)
    ensures GetMessage(Purge(ms, heap), t)
            == match GetMessage(ms, t)
               case None => None
               case Some(m) => if Messages.HasLive(m, heap) then Some(Messages.RemoveDead(m, heap)) else None
  {
    if |ms| > 0 {
      var live := Messages.IsAlive(ms[0], heap);
      var rest := Purge(ms[1..], heap);
      assert Purge(ms, heap) == if live.alive then [live.slot] + rest else rest;
      if ms[0].key == t {
        assert GetMessage(ms, t) == Some(ms[0]);
        if !live.alive {
          assert t !in KeySet(ms[1..]);
          forall i | 0 <= i < |rest| ensures rest[i].key != t {
            assert rest[i].key in KeySet(rest);
          }
        }
      } else {
        GetMessageCons(ms[0], ms[1..], t);
        assert ms == [ms[0]] + ms[1..];
        PurgeFind(ms[1..], t, heap);
        if live.alive {
          GetMessageCons(live.slot, rest, t);
        }
      }
    }
  }

  /** `Notify<T>`: fails on a null payload before anything else; otherwise purges
      stale slots and, if a slot for `t` remains, sends the payload to it. */
  function Notify(bus: Bus, t: TypeTag, payload: Obj, heap: Heap,
                  react: Messages.Invocation -> seq<Command>): (r: Delivery)
    requires Valid(bus)
    ensures Valid(r.bus)
    ensures payload.Null? ==> r == Delivery(bus, [], Some(ArgumentNull("implementation")))
    ensures !payload.Null? && GetMessage(bus.messages, t).None? ==> r == Delivery(RemoveDead(bus, heap), [], None)
    ensures !payload.Null? && GetMessage(bus.messages, t).Some? ==>
              Messages.Sent(r.trace, r.thrown)
                == Messages.Send(Messages.RemoveDead(GetMessage(bus.messages, t).value, heap), heap, payload)
    ensures forall inv :: inv in r.trace ==> inv.payload == payload && inv.token in TokensFor(bus.messages, t)
    ensures !payload.Null? ==> r.bus == Apply(RemoveDead(bus, heap), Reactions(r.trace, react), heap)
  {
    if payload.Null? then Delivery(bus, [], Some(ArgumentNull("implementation")))
    else
      var purged := RemoveDead(bus, heap);
      PurgeFind(bus.messages, t, heap);
      match GetMessage(purged.messages, t)
      case None =>
        assert GetMessage(bus.messages, t).Some? ==>
          Messages.RemoveDead(GetMessage(bus.messages, t).value, heap).entries == [] by {
          if GetMessage(bus.messages, t).Some? {
            Messages.NoLiveEntryPurgesAll(GetMessage(bus.messages, t).value, heap);
          }
        }
        Delivery(purged, [], None)
      case Some(m) =>
        var r := Deliver(purged, m.entries, payload, heap, react);
        assert Messages.Send(m, heap, payload).trace == r.trace;
        r
  }
}

=== FILE: messages.dfy ===
/** `Message<T>`: the slot holding every subscription for one message type, as
    a dictionary from token to weakly held callback. The dictionary is modelled
    as a sequence of entries with pairwise distinct tokens; its order is the
    order a snapshot of the dictionary is enumerated in, which .NET leaves
    unspecified and which nothing below relies on. */
module Messages {
  import opened Wrappers
  import opened Runtime
  import opened Tokens
  import WeakActions

  datatype Entry = Entry(token: SubscribeToken, action: WeakActions.WeakAction)

  datatype Message = Message(key: TypeTag, entries: seq<Entry>)

  /** One callback invocation during a delivery. The token labels the entry the
      callback came from; the source only sees the callback. */
  datatype Invocation = Invocation(token: SubscribeToken, callback: WeakActions.Callback, payload: Obj)

  /** The result of a delivery: the invocations that ran, in order, and the
      exception that stopped it, if one did. */
  datatype Sent = Sent(trace: seq<Invocation>, thrown: Option<Error>)

  datatype Added = Added(slot: Message, token: SubscribeToken)

  datatype Liveness = Liveness(slot: Message, alive: bool)

  function KeysOf(es: seq<Entry>): set<SubscribeToken>
  {
    set e | e in es :: e.token
  }

  /** A dictionary holds each key at most once. */
  predicate DistinctTokens(es: seq<Entry>)
  {
    forall i, j :: 0 <= i < j < |es| ==> es[i].token != es[j].token
  }

  predicate Valid(m: Message)
  {
    DistinctTokens(m.entries)
  }

  /** The entries whose callback target is still reachable. */
  predicate LiveEntry(e: Entry, heap: Heap)
  {
    WeakActions.IsAlive(e.action, heap)
  }

  predicate HasLive(m: Message, heap: Heap)
  {
    exists e :: e in m.entries && LiveEntry(e, heap)
  }

  /** The constructor: the slot for `typeof(T)`, with an empty dictionary. */
  function New(t: TypeTag): (m: Message)
  {
    Message(t, [])
  }

  lemma NewSlotIsEmpty(t: TypeTag, heap: Heap, payload: Obj)
    ensures New(t).key == t && Valid(New(t)) && KeysOf(New(t).entries) == {}
    ensures !IsAlive(New(t), heap).alive
    ensures Send(New(t), heap, payload) == Sent([], None)
  {
  }

  /** `Add`: stores the callback, weakly, under a new token built from a fresh
      GUID, and returns that token. */
  function Add(m: Message, cb: WeakActions.Callback, guid: Guid): (r: Added)
    requires Valid(m)
    requires SubscribeToken(guid) !in KeysOf(m.entries)
    ensures r.slot.key == m.key && Valid(r.slot)
    ensures r.token.guid == guid && r.token !in KeysOf(m.entries)
    ensures forall e :: e in r.slot.entries <==> e in m.entries || e == Entry(r.token, WeakActions.Wrap(cb))
    ensures KeysOf(r.slot.entries) == KeysOf(m.entries) + {r.token}
  {
    var token := SubscribeToken(guid);
    var entries := m.entries + [Entry(token, WeakActions.Wrap(cb))];
    assert forall e :: e in m.entries ==> e.token in KeysOf(m.entries);
    Added(Message(m.key, entries), token)
  }

  lemma KeysOfTail(es: seq<Entry>)
    requires |es| > 0
    ensures KeysOf(es[1..]) <= KeysOf(es)
  {
    assert forall e :: e in es[1..] ==> e in es;
  }

  /** The head of a dictionary's entries shares its token with no later entry. */
  lemma DistinctHead(es: seq<Entry>)
    requires |es| > 0 && DistinctTokens(es)
    ensures DistinctTokens(es[1..])
    ensures forall e :: e in es[1..] ==> e.token != es[0].token
  {
    forall e | e in es[1..] ensures e.token != es[0].token {
      var k :| 0 <= k < |es[1..]| && es[1..][k] == e;
      assert es[k + 1] == e;
    }
  }

  lemma DistinctCons(x: Entry, rest: seq<Entry>)
    requires DistinctTokens(rest)
    requires forall e :: e in rest ==> e.token != x.token
    ensures DistinctTokens([x] + rest)
  {
    var es := [x] + rest;
    forall i, j | 0 <= i < j < |es| ensures es[i].token != es[j].token {
      assert es[j] == rest[j - 1];
      if i > 0 {
        assert es[i] == rest[i - 1];
      } else {
        assert rest[j - 1] in rest;
      }
    }
  }

  function Without(es: seq<Entry>, tok: SubscribeToken): (r: seq<Entry>)
    ensures forall e :: e in r <==> e in es && e.token != tok
    ensures tok !in KeysOf(es) ==> r == es
    ensures DistinctTokens(es) ==> DistinctTokens(r)
  {
    if |es| == 0 then []
    else
      var rest := Without(es[1..], tok);
      KeysOfTail(es);
      assert DistinctTokens(es) ==> DistinctTokens(es[1..]) by {
        if DistinctTokens(es) { DistinctHead(es); }
      }
      if es[0].token == tok then rest
      else
        assert DistinctTokens(es) ==> DistinctTokens([es[0]] + rest) by {
          if DistinctTokens(es) {
            DistinctHead(es);
            DistinctCons(es[0], rest);
          }
        }
        assert es == [es[0]] + es[1..];
        [es[0]] + rest
  }

  /** `Remove`: deletes the entry of that token, if there is one, and nothing else. */
  function Remove(m: Message, tok: SubscribeToken): (r: Message)
    ensures r.key == m.key
    ensures forall e :: e in r.entries <==> e in m.entries && e.token != tok
    ensures tok !in KeysOf(m.entries) ==> r == m
    ensures Valid(m) ==> Valid(r)
    ensures KeysOf(r.entries) == KeysOf(m.entries) - {tok}
  {
    var es := Without(m.entries, tok);
    assert forall e :: e in es ==> e in m.entries;
    Message(m.key, es)
  }

  function LiveOnly(es: seq<Entry>, heap: Heap): (r: seq<Entry>)
    ensures forall e :: e in r <==> e in es && LiveEntry(e, heap)
    ensures DistinctTokens(es) ==> DistinctTokens(r)
  {
    if |es| == 0 then []
    else
      var rest := LiveOnly(es[1..], heap);
      assert DistinctTokens(es) ==> DistinctTokens(es[1..]) by {
        if DistinctTokens(es) { DistinctHead(es); }
      }
      if !LiveEntry(es[0], heap) then rest
      else
        assert DistinctTokens(es) ==> DistinctTokens([es[0]] + rest) by {
          if DistinctTokens(es) {
            DistinctHead(es);
            DistinctCons(es[0], rest);
          }
        }
        [es[0]] + rest
  }

  /** The private purge: drops exactly the entries whose target is gone. */
  function RemoveDead(m: Message, heap: Heap): (r: Message)
    ensures r.key == m.key
    ensures forall e :: e in r.entries <==> e in m.entries && LiveEntry(e, heap)
    ensures Valid(m) ==> Valid(r)
    ensures KeysOf(r.entries) <= KeysOf(m.entries)
  {
    Message(m.key, LiveOnly(m.entries, heap))
  }

  /** `IsAlive`: purges, then reports whether any entry remains. */
  function IsAlive(m: Message, heap: Heap): (r: Liveness)
    ensures r.slot == RemoveDead(m, heap)
    ensures r.alive <==> HasLive(m, heap)
    ensures r.alive <==> |r.slot.entries| > 0
  {
    var purged := RemoveDead(m, heap);
    assert |purged.entries| > 0 ==> purged.entries[0] in purged.entries;
    Liveness(purged, |purged.entries| > 0)
  }

  /** A slot with no live entry is emptied by the purge. */
  lemma NoLiveEntryPurgesAll(m: Message, heap: Heap)
    requires !HasLive(m, heap)
    ensures RemoveDead(m, heap).entries == []
  {
    var live := IsAlive(m, heap);
  }

  /** Reading `IsAlive` a second time gives the same answer and purges nothing more. */
  lemma IsAliveIdempotent(m: Message, heap: Heap)
    ensures IsAlive(IsAlive(m, heap).slot, heap) == IsAlive(m, heap)
  {
    var once := IsAlive(m, heap).slot;
    assert forall i :: 0 <= i < |once.entries| ==> once.entries[i] in once.entries;
    LiveOnlyOfLive(once.entries, heap);
  }

  lemma {:induction false} LiveOnlyOfLive(es: seq<Entry>, heap: Heap)
    requires forall i :: 0 <= i < |es| ==> LiveEntry(es[i], heap)
    ensures LiveOnly(es, heap) == es
  {
    if |es| > 0 {
      var tail := es[1..];
      assert forall i :: 0 <= i < |tail| ==> tail[i] == es[i + 1];
      LiveOnlyOfLive(tail, heap);
      assert LiveOnly(es, heap) == [es[0]] + tail;
      assert es == [es[0]] + tail;
    }
  }

  /** Invokes each snapshotted entry's resolved callback in turn. A callback that
      cannot be resolved yields null, and calling it throws, ending the delivery. */
  function SendEntries(es: seq<Entry>, heap: Heap, payload: Obj): (r: Sent)
    ensures |r.trace| <= |es|
    ensures forall i :: 0 <= i < |r.trace| ==>
              && r.trace[i].token == es[i].token
              && r.trace[i].payload == payload
              && WeakActions.GetAction(es[i].action, heap) == Some(r.trace[i].callback)
    ensures r.thrown.None? ==> |r.trace| == |es|
    ensures r.thrown.Some? ==> r.thrown == Some(NullReference) && |r.trace| < |es|
                               && WeakActions.GetAction(es[|r.trace|].action, heap).None?
  {
    if |es| == 0 then Sent([], None)
    else
      match WeakActions.GetAction(es[0].action, heap)
      case None => Sent([], Some(NullReference))
      case Some(cb) =>
        var rest := SendEntries(es[1..], heap, payload);
        Sent([Invocation(es[0].token, cb, payload)] + rest.trace, rest.thrown)
  }

  /** `Send`: delivers the payload to a snapshot of the dictionary taken before
      the first callback runs. */
  function Send(m: Message, heap: Heap, payload: Obj): (r: Sent)
    ensures |r.trace| <= |m.entries|
    ensures forall inv :: inv in r.trace ==> inv.payload == payload && inv.token in KeysOf(m.entries)
  {
    var r := SendEntries(m.entries, heap, payload);
    assert forall i :: 0 <= i < |r.trace| ==> m.entries[i] in m.entries;
    r
  }

  /** When every entry is alive and bindable, `Send` calls each entry's callback
      exactly once, with the same payload, and throws nothing. */
  lemma SendReachesEveryEntryOnce(m: Message, heap: Heap, payload: Obj)
    requires Valid(m)
    requires forall e :: e in m.entries ==> LiveEntry(e, heap) && e.action.methodInfo !in heap.unbindable
    ensures Send(m, heap, payload).thrown.None?
    ensures |Send(m, heap, payload).trace| == |m.entries|
    ensures forall i :: 0 <= i < |m.entries| ==>
              Send(m, heap, payload).trace[i]
                == Invocation(m.entries[i].token,
                              WeakActions.Callback(m.entries[i].action.targetRef, m.entries[i].action.methodInfo),
                              payload)
    ensures forall i, j :: 0 <= i < j < |m.entries| ==>
              Send(m, heap, payload).trace[i].token != Send(m, heap, payload).trace[j].token
  {
    forall i | 0 <= i < |m.entries|
      ensures WeakActions.GetAction(m.entries[i].action, heap).Some?
    {
      assert m.entries[i] in m.entries;
    }
  }
}

=== FILE: runtime.dfy ===
/** The slice of the .NET runtime the bus relies on: type keys, GUIDs, object
    references, the exceptions it throws, and the garbage collector's verdict on
    which objects are still reachable. */
module Runtime {

  /** A `System.Guid`. Fresh GUIDs are drawn from a counter, so two GUIDs
      produced by two `Guid.NewGuid()` calls are always different. */
  type Guid = nat

  /** The identity of a heap object (what `ReferenceEquals` compares). */
  type Addr = nat

  /** `typeof(T)`: the exact static type a message is published or subscribed as. */
  datatype TypeTag = TypeTag(name: string)

  /** A `MethodInfo`: the method a delegate calls. */
  datatype MethodId = MethodId(declaringType: string, name: string)

  /** Every object the modelled code compares, passes or publishes. */
  datatype Obj =
    | Null
    | TokenObj(guid: Guid)                                        // a SubscribeToken
    | SubscriberObj(addr: Addr, typeArg: TypeTag, instance: Guid) // a Subscriber<typeArg>
    | Boxed(addr: Addr, rtype: TypeTag)                           // any other object

  /** What `GetType()` returns. */
  datatype RuntimeType = TokenType | SubscriberType(typeArg: TypeTag) | OtherType(tag: TypeTag)

  function TypeOf(o: Obj): RuntimeType
    requires !o.Null?
  {
    match o
    case TokenObj(_) => TokenType
    case SubscriberObj(_, t, _) => SubscriberType(t)
    case Boxed(_, t) => OtherType(t)
  }

  /** The exceptions the modelled code raises: `ArgumentNullException` with the
      offending parameter's name, and `NullReferenceException`. */
  datatype Error = ArgumentNull(paramName: string) | NullReference

  /** The environment a weakly held callback is resolved against: the objects the
      garbage collector has reclaimed, and the methods `Delegate.CreateDelegate`
      fails to bind by name. */
  datatype Heap = Heap(dead: set<Addr>, unbindable: set<MethodId>)

  /** The i-th 32-bit word of a GUID's 128-bit value. */
  function GuidWord(g: Guid, i: nat): bv32
    requires i < 4
  {
    var shift := if i == 0 then 1 else if i == 1 then 0x1_0000_0000
                 else if i == 2 then 0x1_0000_0000_0000_0000 else 0x1_0000_0000_0000_0000_0000_0000;
    ((g / shift) % 0x1_0000_0000) as bv32
  }

  /** `Guid.GetHashCode()`: the exclusive-or of the GUID's four 32-bit words,
      read as a signed 32-bit integer. */
  function GuidHash(g: Guid): (h: int)
    ensures -0x8000_0000 <= h < 0x8000_0000
  {
    var x := GuidWord(g, 0) ^ GuidWord(g, 1) ^ GuidWord(g, 2) ^ GuidWord(g, 3);
    var u := x as int;
    if u < 0x8000_0000 then u else u - 0x1_0000_0000
  }
}

=== FILE: subscribers.dfy ===
/** `Subscriber<T>`: the disposable subscription handle used by the other bus
    façade. It holds the callback strongly, may carry a dispatcher the callback
    is marshalled through, and raises `Disposed` when disposed. */
module Subscribers {
  import opened Wrappers
  import opened Runtime
  import WeakActions

  /** A dispatcher, abstracted to a scheduler: handed one action, it either runs
      it at once or records it to run later. */
  datatype Dispatcher = Dispatcher(id: nat, runsAtOnce: bool)

  /** A handler attached to the `Disposed` event. */
  type HandlerId = nat

  datatype Subscriber = Subscriber(addr: Addr, typeArg: TypeTag, instance: Guid,
                                   callback: Option<WeakActions.Callback>,
                                   dispatcher: Option<Dispatcher>,
                                   handlers: seq<HandlerId>)

  /** The closure `() => _callback?.Invoke(obj)` handed to a dispatcher. It
      captures the subscriber object, so it reads the callback when it runs,
      not when it is created. */
  datatype Task = Task(subscriber: Addr, arg: Obj)

  datatype Call = Call(callback: WeakActions.Callback, arg: Obj)

  /** What `Invoke` does before returning: the callbacks it calls itself and the
      actions it hands to a dispatcher. */
  datatype Handoff = Handoff(direct: seq<Call>, dispatched: seq<(Dispatcher, Task)>)

  datatype DisposedEvent = DisposedEvent(handler: HandlerId, sender: Obj)

  datatype Disposal = Disposal(subscriber: Subscriber, raised: seq<DisposedEvent>)

  /** The internal constructor: stores the callback as given and draws a fresh
      instance GUID; no dispatcher, no handlers. */
  function New(addr: Addr, t: TypeTag, cb: Option<WeakActions.Callback>, guid: Guid): (s: Subscriber)
    ensures s.callback == cb && s.dispatcher.None? && s.handlers == []
  {
    Subscriber(addr, t, guid, cb, None, [])
  }

  /** `Disposed += handler`. */
  function AddDisposedHandler(s: Subscriber, h: HandlerId): (r: Subscriber)
    ensures r.handlers == s.handlers + [h]
  {
    s.(handlers := s.handlers + [h])
  }

  /** The subscriber seen through an `object`-typed reference. */
  function AsObject(s: Subscriber): (o: Obj)
    ensures !o.Null? && TypeOf(o) == SubscriberType(s.typeArg)
  {
    SubscriberObj(s.addr, s.typeArg, s.instance)
  }

  /** `On`: stores the dispatcher (null included, which restores direct calls)
      and returns the same subscriber. */
  function On(s: Subscriber, d: Option<Dispatcher>): (r: Subscriber)
    ensures r.dispatcher == d
    ensures r.(dispatcher := s.dispatcher) == s
    ensures AsObject(r) == AsObject(s)
  {
    s.(dispatcher := d)
  }

  /** `Dispose`: drops the callback and raises `Disposed` to every attached
      handler, in attachment order, with the subscriber as sender. There is no
      guard against a second call. */
  function Dispose(s: Subscriber): (r: Disposal)
    ensures r.subscriber.callback.None?
    ensures r.subscriber.(callback := s.callback) == s
    ensures |r.raised| == |s.handlers|
    ensures forall i :: 0 <= i < |r.raised| ==> r.raised[i] == DisposedEvent(s.handlers[i], AsObject(s))
  {
    Disposal(s.(callback := None), seq(|s.handlers|, i requires 0 <= i < |s.handlers| => DisposedEvent(s.handlers[i], AsObject(s))))
  }

  /** Running the dispatched closure against the subscriber's state at that time. */
  function RunTask(s: Subscriber, task: Task): (r: seq<Call>)
    requires task.subscriber == s.addr
    ensures |r| <= 1
    ensures |r| == 1 <==> s.callback.Some?
    ensures forall c :: c in r ==> c == Call(s.callback.value, task.arg)
  {
    match s.callback
    case None => []
    case Some(cb) => [Call(cb, task.arg)]
  }

  /** `Invoke`: with a dispatcher, hands it one closure and calls nothing itself;
      without one, calls the callback, if any, directly. */
  function Invoke(s: Subscriber, obj: Obj): (r: Handoff)
    ensures s.dispatcher.Some? ==> r.direct == [] && |r.dispatched| == 1
                                   && r.dispatched[0].0 == s.dispatcher.value
    ensures s.dispatcher.None? ==> r.dispatched == [] && |r.direct| <= 1
    ensures s.dispatcher.None? && s.callback.Some? ==> r.direct == [Call(s.callback.value, obj)]
    ensures s.callback.None? ==> r.direct == []
  {
    match s.dispatcher
    case Some(d) => Handoff([], [(d, Task(s.addr, obj))])
    case None => Handoff(RunTask(s, Task(s.addr, obj)), [])
  }

  /** The scheduler's side of `dispatcher.Invoke(action)`: run the closure now,
      against the subscriber as it is, or append it to the dispatcher's queue. */
  function Schedule(d: Dispatcher, task: Task, s: Subscriber, queue: seq<Task>): (r: (seq<Call>, seq<Task>))
    requires task.subscriber == s.addr
  {
    if d.runsAtOnce then (RunTask(s, task), queue) else ([], queue + [task])
  }

  /** `Equals(object)`: false for null, true for the same reference, false for
      another runtime type (a `Subscriber` of another `T` included), and
      otherwise a comparison of instance GUIDs. */
  function Equals(s: Subscriber, o: Obj): (r: bool)
    ensures o.Null? ==> !r
    ensures o.SubscriberObj? && o.addr == s.addr ==> r
    ensures r && SameObjectAgrees(s, o) ==> TypeOf(o) == SubscriberType(s.typeArg) && o.instance == s.instance
  {
    if o.Null? then false
    else if o.SubscriberObj? && o.addr == s.addr then true
    else if TypeOf(o) != SubscriberType(s.typeArg) then false
    else o.instance == s.instance
  }

  /** `GetHashCode`: the instance GUID's hash. */
  function HashCode(s: Subscriber): (h: int)
    ensures -0x8000_0000 <= h < 0x8000_0000
  {
    GuidHash(s.instance)
  }

  /** A reference `o` to a subscriber object agrees with `s` when it is `s` itself. */
  predicate SameObjectAgrees(s: Subscriber, o: Obj)
  {
    o.SubscriberObj? && o.addr == s.addr ==> o == AsObject(s)
  }

  // ---------------------------------------------------------------- lemmas

  /** A handler attached with `Disposed +=` is raised by the next `Dispose`, after
      the handlers attached before it, with the subscriber as sender. */
  lemma DisposeRaisesAddedHandler(s: Subscriber, h: HandlerId)
    ensures Dispose(AddDisposedHandler(s, h)).raised == Dispose(s).raised + [DisposedEvent(h, AsObject(s))]
  {
  }

  /** A second `On` replaces the first, and `On` never changes identity. */
  lemma OnReplacesDispatcher(s: Subscriber, d1: Option<Dispatcher>, d2: Option<Dispatcher>)
    ensures On(On(s, d1), d2) == On(s, d2)
    ensures Equals(On(s, d1), AsObject(s))
  {
  }

  /** After `Dispose`, no `Invoke` calls anything, directly or through a dispatcher. */
  lemma DisposeSilencesInvoke(s: Subscriber, obj: Obj)
    ensures Invoke(Dispose(s).subscriber, obj).direct == []
    ensures forall i :: 0 <= i < |Invoke(Dispose(s).subscriber, obj).dispatched| ==>
              RunTask(Dispose(s).subscriber, Invoke(Dispose(s).subscriber, obj).dispatched[i].1) == []
  {
  }

  /** A closure handed to a dispatcher before `Dispose` but run after it calls nothing. */
  lemma DisposeBeforeDispatchedRun(s: Subscriber, d: Dispatcher, obj: Obj)
    requires s.dispatcher == Some(d)
    ensures var task := Invoke(s, obj).dispatched[0].1;
            RunTask(Dispose(s).subscriber, task) == []
  {
  }

  /** If nothing happens between `Invoke` and the dispatcher running the closure,
      the dispatched call is exactly the call a direct `Invoke` would make. */
  lemma DispatchedRunMatchesDirect(s: Subscriber, d: Dispatcher, obj: Obj)
    requires s.dispatcher == Some(d)
    ensures var task := Invoke(s, obj).dispatched[0].1;
            RunTask(s, task) == Invoke(On(s, None), obj).direct
    ensures var task := Invoke(s, obj).dispatched[0].1;
            d.runsAtOnce ==> Schedule(d, task, s, []).0 == Invoke(On(s, None), obj).direct
  {
  }

  /** `Dispose` raises `Disposed` again on every call and leaves the same state. */
  lemma DisposeRaisesEveryTime(s: Subscriber)
    ensures Dispose(Dispose(s).subscriber).subscriber == Dispose(s).subscriber
    ensures Dispose(Dispose(s).subscriber).raised == Dispose(s).raised
    ensures |s.handlers| > 0 ==> |Dispose(Dispose(s).subscriber).raised| > 0
  {
    var once := Dispose(s);
    var twice := Dispose(once.subscriber);
    assert AsObject(once.subscriber) == AsObject(s);
    assert |twice.raised| == |once.raised|;
    forall i | 0 <= i < |once.raised| ensures twice.raised[i] == once.raised[i] {
    }
  }

  /** Equality is false for null, true through the subscriber's own reference,
      false for any other runtime type, and otherwise a GUID comparison. */
  lemma EqualsCases(s: Subscriber, o: Obj)
    requires SameObjectAgrees(s, o)
    ensures Equals(s, Null) == false
    ensures Equals(s, AsObject(s))
    ensures !o.Null? && TypeOf(o) != SubscriberType(s.typeArg) ==> !Equals(s, o)
    ensures !o.Null? && TypeOf(o) == SubscriberType(s.typeArg) ==> (Equals(s, o) <==> o.instance == s.instance)
  {
  }

  /** Between well-formed references, equality is symmetric. */
  lemma EqualsSymmetric(a: Subscriber, b: Subscriber)
    requires SameObjectAgrees(a, AsObject(b)) && SameObjectAgrees(b, AsObject(a))
    ensures Equals(a, AsObject(b)) == Equals(b, AsObject(a))
  {
  }

  /** Equal subscribers have equal hash codes. */
  lemma HashConsistentWithEquals(a: Subscriber, b: Subscriber)
    requires SameObjectAgrees(a, AsObject(b))
    requires Equals(a, AsObject(b))
    ensures HashCode(a) == HashCode(b)
  {
  }
}

=== FILE: tokens.dfy ===
/** `SubscribeToken`: the value `MessageBus.Subscribe` hands back, identifying one
    subscription by a GUID drawn fresh when the token is constructed. */
module Tokens {
  import opened Wrappers
  import opened Runtime

  datatype SubscribeToken = SubscribeToken(guid: Guid)

  /** The token seen through an `object`-typed reference. A token is created once,
      with a GUID of its own, so its reference identity is its GUID. */
  function AsObject(t: SubscribeToken): (o: Obj)
    ensures !o.Null? && TypeOf(o) == TokenType
  {
    TokenObj(t.guid)
  }

  /** `IEquatable<SubscribeToken>.Equals`: compares GUIDs. The argument is
      dereferenced without a null check, so a null argument throws. */
  function Equals(t: SubscribeToken, other: Option<SubscribeToken>): (r: Result<bool, Error>)
    ensures other.None? ==> r == Failure(NullReference)
    ensures other.Some? ==> r.Success? && (r.value <==> t == other.value)
  {
    match other
    case None => Failure(NullReference)
    case Some(o) => Success(t.guid == o.guid)
  }

  /** `Equals(object)`, which the token inherits unchanged from `object`:
      reference equality. */
  function EqualsObject(t: SubscribeToken, o: Obj): (r: bool)
    ensures r ==> !o.Null? && TypeOf(o) == TokenType
  {
    o == AsObject(t)
  }

  lemma EqualsReflexive(t: SubscribeToken)
    ensures Equals(t, Some(t)) == Success(true)
    ensures EqualsObject(t, AsObject(t))
  {
  }

  lemma EqualsSymmetric(a: SubscribeToken, b: SubscribeToken)
    ensures Equals(a, Some(b)) == Equals(b, Some(a))
  {
  }

  lemma EqualsTransitive(a: SubscribeToken, b: SubscribeToken, c: SubscribeToken)
    requires Equals(a, Some(b)) == Success(true) && Equals(b, Some(c)) == Success(true)
    ensures Equals(a, Some(c)) == Success(true)
  {
  }

  /** A token never equals an object of another runtime type, nor null. */
  lemma NeverEqualsOtherObject(t: SubscribeToken, o: Obj)
    requires o.Null? || TypeOf(o) != TokenType
    ensures !EqualsObject(t, o)
  {
  }

  /** Tokens built from different GUIDs are unequal through both overloads. */
  lemma FreshGuidsGiveUnequalTokens(g1: Guid, g2: Guid)
    requires g1 != g2
    ensures Equals(SubscribeToken(g1), Some(SubscribeToken(g2))) == Success(false)
    ensures !EqualsObject(SubscribeToken(g1), AsObject(SubscribeToken(g2)))
  {
  }
}

=== FILE: weak_actions.dfy ===
/** `WeakAction<T>`: a callback held through a weak reference to its target
    object, so that subscribing does not keep the subscriber alive. */
module WeakActions {
  import opened Wrappers
  import opened Runtime

  /** An `Action<T>` delegate: the object it is bound to (`Target`, null for a
      static method) and the method it calls. */
  datatype Callback = Callback(target: Option<Addr>, methodInfo: MethodId)

  /** The weakly held form: a `WeakReference` to the target and the `MethodInfo`. */
  datatype WeakAction = WeakAction(targetRef: Option<Addr>, methodInfo: MethodId)

  /** The constructor: remember the target weakly and the method strongly. */
  function Wrap(cb: Callback): (w: WeakAction)
    ensures w.methodInfo == cb.methodInfo && w.targetRef == cb.target
  {
    WeakAction(cb.target, cb.methodInfo)
  }

  /** `WeakReference.IsAlive`: false for a reference to null, otherwise true until
      the collector reclaims the target. */
  predicate IsAlive(w: WeakAction, heap: Heap)
  {
    w.targetRef.Some? && w.targetRef.value !in heap.dead
  }

  /** Matches on the method alone; the target plays no part. */
  predicate HasAction(w: WeakAction, cb: Callback)
  {
    w.methodInfo == cb.methodInfo
  }

  /** Rebuilds a strong delegate: none when the target is gone, and none (never an
      exception) when binding the method by name to the target fails. */
  function GetAction(w: WeakAction, heap: Heap): (r: Option<Callback>)
    ensures !IsAlive(w, heap) ==> r.None?
    ensures r.Some? ==> IsAlive(w, heap) && w.methodInfo !in heap.unbindable
    ensures r.Some? ==> r.value.target == w.targetRef && r.value.methodInfo == w.methodInfo
    ensures IsAlive(w, heap) && w.methodInfo !in heap.unbindable ==> r.Some?
  {
    if !IsAlive(w, heap) then None
    else if w.methodInfo in heap.unbindable then None
    else Some(Callback(w.targetRef, w.methodInfo))
  }

  /** Wrapping a callback and resolving it again gives back the same callback,
      exactly when its target is alive and its method can be bound. */
  lemma ResolveRoundTrip(cb: Callback, heap: Heap)
    ensures GetAction(Wrap(cb), heap) == Some(cb)
        <==> cb.target.Some? && cb.target.value !in heap.dead && cb.methodInfo !in heap.unbindable
  {
  }

  /** `HasAction` recognises the wrapped callback and every delegate to the same
      method, whatever object that delegate is bound to. */
  lemma HasActionIgnoresTarget(cb: Callback, other: Option<Addr>)
    ensures HasAction(Wrap(cb), cb)
    ensures HasAction(Wrap(cb), Callback(other, cb.methodInfo))
  {
  }
}

=== FILE: wrappers.dfy ===
/** Wrappers used throughout the model: `Option` stands for a
    reference that may be null, `Result` for a call that either returns or throws. */
module Wrappers {

  datatype Option<+T> = None | Some(value: T)

  datatype Result<+R, +E> = Success(value: R) | Failure(error: E)
}
